=== FILE: README.md ===
# WebCrawlScrape core in Dafny

This project models the core of WebCrawlScrape, a small breadth-first web
crawler. Starting from a seed URL, it walks the pages of the seed's domain and
downloads every linked file whose extension is wanted. The model covers the
following parts.

- `Config` (`config.py`): the extension presets, the default extensions, the
  preset lookup and `parse_extensions`, the parser that turns
  "images,.pdf,doc" into a set of extensions.
- `Urls` (`crawler.py` helpers): `is_same_domain`, `get_extension` with
  `os.path.splitext`, `os.path.basename`, fragment stripping and
  `get_url_depth`. A URL is a record of the `urlparse` parts the crawler
  uses: scheme, network location, path, query and fragment.
- `Robots`: `RobotsChecker`. Loading is an oracle that succeeds exactly when
  reading robots.txt does not raise. The checker fails open only when the
  read raises, for example on a network error.
- `Dedup`: `DuplicateDetector` with `is_duplicate` and `get_count`.
- `Download`: the decision flow of `download_file`, with the outcomes
  `no_filename`, `exists`, `duplicate`, `success` and `error`. The download
  directory is the set of names it holds. The HTTP fetch and the file write
  are oracles.
- `PageSave`: the saved page's file name and the save step that never
  overwrites a file.
- `Links`: classification of one page's anchor links (skip, file to
  download, page to enqueue, or ignore) and of its image links.
- `Crawler`: the `crawl` loop. It is a `Step` method per queue entry together
  with the loop invariant `Valid`. `Valid` covers:
  - bookkeeping of counters;
  - admission rules;
  - breadth-first order;
  - no overwriting.
- `Text`, `Gather`, `Wrappers`: string helpers modelling Python's `lower`,
  `strip`, `rstrip` and `split`, gathering over sequences, and `Option`.

Where the documented behaviour and the code differ, the model follows the
code:

- Only crawled URLs enter the visited set. Entries that are too deep or
  blocked by robots.txt do not enter it.
- A page link can be queued several times before it is crawled. The copies
  are dropped when they are dequeued.
- Failed file downloads (`error`) do not increase the `errors` counter. Only
  failed page fetches do.
- Fragments are stripped from anchor links only. Image links are taken as
  they are, and they are not checked against the visited set.
- The `html` directory is created when the crawl starts. No file download
  can be named `html`, because a wanted file has a non-empty extension.
- The detector registers a content before the write. After a failed write,
  an identical content is still skipped as a duplicate.
- `is_same_domain` compares network locations only. The scheme is ignored,
  so `http` and `ftp` links to the seed's host are on its domain, while a
  `www.` prefix, another letter case or an explicit port are not.
- The empty `all` preset means "any extension" only when the set is passed to
  `crawl` directly. Through `parse_extensions` it collects nothing, so the
  parser falls back to the defaults.

## Model

| member | source | states |
|---|---|---|
| Robots.LoadChecker | crawler.py:30-46 | The checker is loaded exactly when reading robots.txt at `<scheme>://<netloc>/robots.txt` of the seed does not raise, and then it keeps the policy that was read |
| Robots.CanFetch | crawler.py:48-52 | An unloaded checker allows every URL; a loaded one gives its rules' answer for the agent `WebCrawlScrape/1.0` |
| Robots.FailOpen | crawler.py:39-52 | When reading robots.txt raises, every URL may be fetched |
| Dedup.IsDuplicate | crawler.py:64-70 | A content is reported as a duplicate exactly when it was seen before; a duplicate leaves the detector unchanged, a new content is registered and the count grows by one |
| Dedup.FeedRegisters | crawler.py:64-74 | After a run of checks there is one answer per content, and the detector holds the earlier contents plus every content checked |
| Dedup.FeedAnswers | crawler.py:64-70 | In a run of checks, the i-th content is a duplicate exactly when it was registered before the run or occurs earlier in the run |
| Dedup.FeedCountsFresh | crawler.py:64-74 | `get_count` grows by exactly the number of contents accepted as new |
| Dedup.CountIsDistinctContents | crawler.py:72-74 | From a fresh detector, `get_count` equals the number of distinct contents checked, and so does the number of contents accepted as new |
| Dedup.IdenticalPair | crawler.py:64-74 | Of two identical contents, the first is accepted and the second reported as a duplicate, and the count is one |
| Urls.StripFragment | crawler.py:283 | The result has no fragment and differs from the link in nothing else |
| Urls.IsSameDomain | crawler.py:80-82 | Defines the domain test as equality of network locations; `Urls.SameDomainIsExact` states what it admits |
| Urls.SameDomainIsExact | crawler.py:80-82 | The same host under any scheme is on the domain; a `www.` prefix, another letter case or an explicit port is not |
| Urls.LastIndexOf | crawler.py:114 | The position of the last occurrence of the character, with no occurrence after it, or -1 when there is none |
| Urls.Basename | crawler.py:114 | Defines `os.path.basename` as everything after the last slash; `Urls.BasenameIsFinalSegment` states its properties |
| Urls.BasenameIsFinalSegment | crawler.py:114 | The basename has no slash, ends the path, and when shorter than the path is preceded by a slash |
| Urls.SplitExt | crawler.py:88 | The extension is empty, or it is a dot with no further dot that ends the basename; it is non-empty exactly when the basename has a dot preceded by a non-dot character |
| Urls.Extension | crawler.py:85-88 | The extension is empty or a lower-case dotted suffix with a single dot; it is non-empty exactly when the final segment has such a dot, and it is no longer than the final segment |
| Urls.ExtensionIsLoweredTail | crawler.py:85-88 | The extension is the lower-cased tail of the final path segment |
| Urls.SegmentCountIsRunEnds | crawler.py:103-104 | Counting the non-empty pieces of a split at slashes counts the maximal runs of non-slash characters |
| Urls.UrlDepth | crawler.py:91-104 | With trailing slashes dropped from both paths, the depth counts the non-empty segments of what follows the base path when the URL's path starts with it, and of the whole path otherwise |
| Urls.DepthIgnoresTrailingSlash | crawler.py:91-104 | A trailing slash on the URL's path or on the base path does not change the depth |
| Urls.DepthBelowRoot | crawler.py:91-104 | Below a root base path, the depth is the number of non-empty segments of the URL's path |
| Urls.DepthBelowBase | crawler.py:91-104 | Below any base path, the depth is the number of non-empty segments after the base |
| Urls.DepthIsCharacterwise | crawler.py:96-100 | The base is removed as a character prefix, so below `/a/b` the path `/a/bc/d` has depth 2 |
| Download.DownloadFile | crawler.py:107-144 | `no_filename` exactly for an empty basename; `exists` exactly for a present name, with no fetch in both cases; `duplicate` exactly when the name is new, the fetch succeeds, a detector is on and it has seen the content, leaving directory and detector alone; `error` exactly when the name is new and the fetch fails, or the content is new and the write does not complete; a failed fetch or a failed open leaves the directory unchanged, while a write that fails after the file was created adds the name; `success` exactly when the name is new, the fetch succeeds, the content is new and the write completes, adding the name; the directory never loses a name; a fetched content is always registered |
| Download.FailedFetchRetried | crawler.py:118-128 | A failed request writes nothing, so a later URL with the same basename is requested again instead of being reported as `exists` |
| Download.IdenticalContentOnce | crawler.py:131-140 | Two new file names with the same content: the first is downloaded and registered, the second is skipped as `duplicate` and not written |
| Download.FailedWriteStillRegisters | crawler.py:131-144 | When the first copy of a content fails to be written (`error`), a second URL with the same content is still reported as `duplicate` |
| PageSave.Sanitize | crawler.py:262 | Every reserved character becomes an underscore and every other character stays in place, so the name holds no reserved character |
| PageSave.WithHtmlSuffix | crawler.py:263-264 | A name already ending in `.html` or `.htm` is kept as it is; any other name gains exactly `.html`; the result ends in an HTML suffix and keeps a reserved-free name reserved-free |
| PageSave.IndexName | crawler.py:260-264 | The `index` stem yields `index.html` |
| PageSave.PageFilename | crawler.py:259-264 | The name is the sanitised stem when that already ends in `.html` or `.htm`, and the sanitised stem plus `.html` otherwise; it is non-empty, free of reserved characters, and a root path yields `index.html` |
| PageSave.PageFilenameIdempotent | crawler.py:259-264 | Deriving a file name from a derived file name gives it back unchanged |
| PageSave.SavePage | crawler.py:266-275 | A page counts as saved exactly when its name was absent and the write completed; a failed open leaves the directory unchanged, while a write that fails after the file was created adds the name; an existing file is never overwritten; at most the page's own name is added |
| Links.ClassifyAnchor | crawler.py:281-299 | With its fragment removed, an anchor is skipped exactly when it is empty or visited; it is a file exactly when it is new and its extension is wanted; it is enqueued one level deeper exactly when it is new, not wanted, same-domain and within the depth limit |
| Links.IsWanted | crawler.py:291 | Defines the extension test: the extension must be non-empty, and then an empty allowed set admits it, otherwise it must be listed |
| Links.ScanAnchors | crawler.py:281-299 | The anchor loop of one page enqueues at most one entry per anchor |
| Links.ScanAnchorsGathers | crawler.py:281-299 | The anchor loop gathers each anchor's file into a set and appends each anchor's page entry in document order |
| Links.ScanAnchorsFiles | crawler.py:285-293 | A URL is among the page's anchor files exactly when some anchor is classified as that file |
| Links.ScanAnchorsPages | crawler.py:295-299 | Every anchor classified as a page is enqueued, and every enqueued entry comes from such an anchor |
| Links.ScanAnchorsPageCount | crawler.py:281-299 | The number of enqueued entries equals the number of anchors classified as pages, so each such anchor is enqueued exactly once |
| Links.ScanAnchorsSound | crawler.py:280-299 | Files have wanted extensions, no fragment and were not visited; entries are same-domain, unvisited, unwanted, one level deeper and within the depth limit; no URL is both |
| Links.ScanAnchorsPagesBelow | crawler.py:296-299 | Every enqueued entry is one level below its page, on the seed's domain, without a fragment |
| Links.ScanImages | crawler.py:302-306 | Defines the image loop; `Links.ScanImagesSound` and `Links.ScanImagesComplete` state what it keeps |
| Links.ScanImagesGathers | crawler.py:302-306 | The image loop keeps exactly the image links with a wanted extension |
| Links.ScanImagesSound | crawler.py:302-306 | Every collected image is one of the page's image links, with a wanted extension |
| Links.ScanImagesComplete | crawler.py:302-306 | Every image link with a wanted extension is collected |
| Links.VisitedImageStillCollected | crawler.py:285-306 | A link already crawled as a page is collected again as an image, but never as an anchor |
| Crawler.Resolve | crawler.py:181-189 | Only arguments not given at all take the defaults (the archive and image extensions, 200 pages); an empty extension set stays empty; a robots.txt checker is built exactly when asked for |
| Crawler.Admission | crawler.py:222-233 | A dequeued entry is dropped as visited, dropped as too deep, refused by robots.txt, or admitted, and exactly one of these holds, each exactly under the source's conditions in order |
| Crawler.Enumerate | crawler.py:309 | The set's elements are listed once each, in some order |
| Crawler.DownloadAllLog | crawler.py:309-314 | One `download_file` call per URL, in order, named by the URL's basename, with `no_filename` exactly for an empty basename |
| Crawler.DownloadAllNames | crawler.py:309-316 | The directory only grows, and each success writes a name that was absent before the run and is present after it |
| Crawler.DownloadAllCount | crawler.py:314-316 | There are no more successes than new names in the directory |
| Crawler.DownloadAllKeepsDetector | crawler.py:314-318 | The detector is present throughout the run or absent throughout; without one, no download is a duplicate |
| Crawler.DownloadAllSeen | crawler.py:314-318 | With a detector, it only grows, and by at least one content per success |
| Crawler.BatchCoverage | crawler.py:308-314 | Running the downloads over an enumeration of the batch tries each file URL of the page exactly once |
| Crawler.BatchNames | crawler.py:309-316 | Each attempt is named by its URL's basename; each success adds a name that was absent, and successes are bounded by new names |
| Crawler.BatchDetector | crawler.py:314-318 | The detector stays present or absent; without one there are no duplicates, with one it grows by a content per success |
| Crawler.DownloadBatch | crawler.py:308-318 | The batch is exactly `download_file` run in turn over an enumeration of the page's file URLs, each URL once; so every file URL is tried once, each success adds a new name and, with a detector, a new content, and without one there are no duplicates |
| Crawler.InitialValid | crawler.py:191-217 | The initial state (the seed at depth 0, all counters zero) satisfies the loop invariant |
| Crawler.PopValid | crawler.py:220-227 | Dropping a visited or too-deep entry keeps the invariant |
| Crawler.BlockValid | crawler.py:229-233 | Refusing an entry by robots.txt and counting it keeps the invariant |
| Crawler.AdmitValid | crawler.py:235-251 | Marking an admitted entry visited and counting it keeps the invariant, with an error counted when the page fetch fails |
| Crawler.AdmitFront | crawler.py:235-236 | After admission the entry is the last crawled page, and the queue lies at its depth or one below |
| Crawler.EnqueueBreadthFirst | crawler.py:297-299 | Appending entries one level below the current page keeps the queue and the crawled pages in breadth-first order |
| Crawler.EnqueueAdmissions | crawler.py:294-299 | Appending same-domain entries without fragment below the seed keeps every queued entry well formed |
| Crawler.VisitStorage | crawler.py:255-318 | Saving the page at most once under a new name, and counting no more downloads than new names and new contents, keeps the no-overwrite part of the invariant |
| Crawler.VisitValid | crawler.py:255-318 | A visit that changes neither the crawled record nor the error and robots counters keeps the invariant when its other parts hold |
| Crawler.VisitPage | crawler.py:255-318 | Visiting a fetched page keeps the invariant: the page is saved as `SavePage` says, its page links are appended to the queue, and the attempts, the directory and the detector are exactly those of `download_file` run over an enumeration of the page's file URLs, from whose results successes and duplicates are counted |
| Crawler.CrawlEntry | crawler.py:235-318 | An admitted entry is crawled and counted once; a failed fetch counts one error and nothing else; a fetched page extends the queue with its page links, no counter decreases, and the invariant holds |
| Crawler.Step | crawler.py:219-318 | One loop iteration keeps the invariant: visited and too-deep entries are dropped with no change, refused entries are counted as `robots_blocked`, admitted ones are counted as crawled, errors count exactly the failed page fetches, and no counter decreases |
| Crawler.Crawl | crawler.py:181-318 | The loop ends with an empty queue or the page budget reached; at most `max_pages` pages are crawled, each URL at most once, within the depth limit, starting with the seed; the counters agree with the crawled record; with a budget of at least one page and a seed that is within the depth limit and allowed by robots.txt, at least the seed is crawled |
| Crawler.BlockedNeverVisited | crawler.py:229-235 | A URL refused by robots.txt is never among the visited URLs |
| Crawler.NothingBlockedWhenUnloaded | crawler.py:205-233 | Without robots checking, or when reading robots.txt raises, `robots_blocked` stays zero |
| Config.PresetsAreExtensionNames | config.py:16-26 | Every preset extension starts with a dot and has no capitals |
| Config.DefaultExtensionsListed | config.py:29 | The defaults are exactly the six archive and eight image extensions |
| Config.ExtensionsFromPreset | config.py:32-34 | The lookup yields well-formed extensions, and yields something only when the lower-cased name is a preset |
| Config.PresetLookupIgnoresCase | config.py:32-34 | Names that differ only in letter case select the same preset, and an unknown name yields the empty set |
| Config.PresetLookupSelects | config.py:32-34 | A name whose lower-cased form is a preset yields exactly that preset's extensions |
| Config.PresetLookupMixedCase | config.py:32-34 | `Images` selects the image preset and `ARCHIVES` the archive preset |
| Config.Parts | config.py:53 | There is one part per comma-separated piece; every part is lower case, holds no comma, and neither starts nor ends with whitespace |
| Config.NormalizeShape | config.py:53 | A comma-free piece, stripped and lower-cased, is lower case, comma-free, and has no whitespace at either end |
| Config.Contribution | config.py:55-61 | Defines one part's contribution: a preset's extensions, a dotted token as it is, a bare token with a dot, an empty part nothing; `Config.ContributionShape` and `Config.Collect` state its properties |
| Config.ContributionShape | config.py:55-61 | Every extension one lower-case part contributes starts with a dot and has no capitals |
| Config.Collect | config.py:55-61 | An extension is collected exactly when some part contributes it |
| Config.ParseExtensions | config.py:37-63 | The empty string gives the defaults; the result is never empty and holds only well-formed extensions; when no part contributes anything it is the defaults, and otherwise an extension is in it exactly when some part contributes it |
| Config.CollectedOfJoin | config.py:52-61 | Joining two extension strings with a comma collects the union of what each collects |
| Config.CollectedOfEmpty | config.py:49-63 | The empty string on its own collects nothing |
| Config.ParseCommutes | config.py:52-63 | The order of two comma-separated lists does not change the result |
| Config.ParseRepeat | config.py:52-63 | Repeating a list of parts does not change the result |
| Config.ParsePresetName | config.py:55-57 | A non-empty preset name on its own selects exactly that preset |
| Config.ParseDottedToken | config.py:58-59 | A clean dotted token that is not a preset name is kept as it is |
| Config.ParseBareToken | config.py:60-61 | A clean bare token that is not a preset name gains a leading dot |
| Config.ParseAllFallsBack | config.py:25-63 | `all` on its own collects nothing, so the parser returns the defaults |
| Config.ParsePaddedToken | config.py:53-61 | A token with whitespace around it parses like the lower-cased token alone |
| Config.ParsePaddedPreset | config.py:53-57 | ` Images ` selects exactly the image preset |
| Text.Lower | config.py:53 | Lower-casing keeps the length, changes exactly the ASCII capitals and leaves no capital |
| Text.StripEmptyIff | crawler.py:260 | Stripping leaves nothing exactly when every character is one to strip |
| Text.Strip | config.py:53 | The result is no longer than the input and, when non-empty, neither starts nor ends with a character to strip |
| Text.StripPadded | config.py:53 | Stripping a token padded only with characters to strip gives the token back |
| Text.Split | config.py:53 | There is at least one piece and no piece holds the separator |
| Text.JoinSplit | config.py:53 | Splitting at a separator and joining the pieces back gives the string again |
| Text.SplitJoin | config.py:53 | Joining separator-free pieces and splitting again gives the pieces back |
| Text.SplitConcat | config.py:53 | Splitting two strings joined by the separator gives the pieces of the first followed by those of the second |

## Left out

- HTTP requests, status checks and timeouts are not modelled. Page and file fetches are oracles that return `None` when the request raises or the status is an error.
- HTML parsing with BeautifulSoup is not modelled. A page is its anchor and image links, already resolved with `urljoin`.
- `urlparse` and `urljoin` are not modelled. A URL is already a record of its parts, and links are compared as records.
- The `params` part of a URL (`;v=1`) is not modelled, so two links that differ only in it are the same record here.
- Crawler.Crawl: a link that `urljoin` or `urlparse` rejects (such as `http://[x/a.zip`) raises `ValueError` in the link loops, outside any `try`, and ends `crawl` without returning its statistics. Pages in the model hold parsed URLs only, so this exit is not modelled.
- Page and file fetches and writes are fixed functions of the URL or name for the whole crawl. The source issues a new request each time, which may answer differently.
- `os.path` is modelled as the POSIX one. On Windows `ntpath` also splits at a backslash.
- RobotFileParser's rule evaluation is not modelled. A loaded policy is an arbitrary function of agent and URL.
- RobotFileParser's handling of HTTP error statuses is not modelled separately. `read` catches them itself, so they reach the crawler as a loaded policy: 401 and 403 refuse every URL, 5xx refuses every URL, and other 4xx allow every URL. The arbitrary loaded policy covers all three.
- md5 fingerprints are replaced by the content itself, an injective fingerprint, so hash collisions are not modelled.
- File system calls are not modelled: `os.makedirs`, `os.path.exists` and `open`/`write`.
  - Directories are the sets of names they hold.
  - Directory creation is assumed to succeed.
  - A write opens and completes, fails to open, or fails after creating the file.
- Download.DownloadFile: file names are compared exactly, as on a case-sensitive file system. On Windows and on a default macOS volume, `os.path.exists` also finds `report.pdf` for `Report.PDF`, and the source then reports `exists` where the model fetches and writes.
- PageSave.SavePage: saved page names are compared exactly, for the same reason, so a page whose name differs from an existing file only in letter case is written here but skipped by the source on a case-insensitive file system.
- The page text written by a save is not modelled; only the file name matters.
- The `delay` and `time.sleep` calls are not modelled, because they do not affect any result.
- Printing and the final summary are not modelled, because they are output only.
- Python's set iteration order over a page's file URLs is an arbitrary enumeration.
- `get_url_depth` is modelled on its own, because `crawl` does not use it; depth in the crawl is the link-hop count.
- `str.lower` is modelled on ASCII letters only. Python also lowers non-ASCII capitals.
- The GUI, the command-line front end and the version module are not part of this model.

=== FILE: config.dfy ===
/**
 * Crawler settings: default limits, the named extension presets, and the
 * parser that turns a user's extension string ("images,.pdf,doc") into the
 * set of extensions the crawler downloads.
 */
module Config {
  import opened Text

  /** Page budget used when the caller gives none. */
  const DefaultMaxPages: int := 200

  /** Named extension sets; the empty "all" preset means "any extension". */
  const Presets: map<string, set<string>> := map[
    "images" := {".png", ".jpg", ".jpeg", ".gif", ".bmp", ".webp", ".svg", ".ico"},
    "documents" := {".pdf", ".doc", ".docx", ".txt", ".rtf", ".odt", ".xls", ".xlsx"},
    "archives" := {".zip", ".rar", ".7z", ".tar", ".gz", ".bz2"},
    "audio" := {".mp3", ".wav", ".ogg", ".flac", ".m4a", ".aac"},
    "video" := {".mp4", ".mkv", ".avi", ".mov", ".webm", ".flv"},
    "code" := {".py", ".js", ".html", ".css", ".json", ".xml", ".yaml", ".yml"},
    "midi" := {".mid", ".midi"},
    "arc" := {".zip", ".map", ".rec", ".png", ".jpg"},
    "all" := {}
  ]

  /** Extensions used when none are specified: archives together with images. */
  const DefaultExtensions: set<string> := Presets["archives"] + Presets["images"]

  /** The shape every configured extension has: a leading dot, no capitals. */
  predicate IsExtensionName(e: string) {
    |e| > 0 && e[0] == '.' && IsLowerCase(e)
  }

  lemma PresetsAreExtensionNames()
    ensures forall k, e :: k in Presets && e in Presets[k] ==> IsExtensionName(e)
  {
    assert Presets.Keys == {"images", "documents", "archives", "audio", "video", "code", "midi", "arc", "all"};
    forall k | k in Presets ensures forall e :: e in Presets[k] ==> IsExtensionName(e) {
      if k in {"images", "documents", "archives", "audio"} {
        FirstPresetsAreExtensionNames(k);
      } else {
        LastPresetsAreExtensionNames(k);
      }
    }
  }

  lemma FirstPresetsAreExtensionNames(k: string)
    requires k in {"images", "documents", "archives", "audio"}
    ensures forall e :: e in Presets[k] ==> IsExtensionName(e)
  {
  }

  lemma LastPresetsAreExtensionNames(k: string)
    requires k in {"video", "code", "midi", "arc", "all"}
    ensures forall e :: e in Presets[k] ==> IsExtensionName(e)
  {
  }

  /** The defaults, spelled out: the six archive and eight image extensions. */
  lemma DefaultExtensionsListed()
    ensures DefaultExtensions == {".zip", ".rar", ".7z", ".tar", ".gz", ".bz2",
                                  ".png", ".jpg", ".jpeg", ".gif", ".bmp", ".webp", ".svg", ".ico"}
  {
    assert Presets["archives"] == {".zip", ".rar", ".7z", ".tar", ".gz", ".bz2"};
    assert Presets["images"] == {".png", ".jpg", ".jpeg", ".gif", ".bmp", ".webp", ".svg", ".ico"};
  }

  /** A preset's extensions, looked up case-insensitively; unknown names give the empty set. */
  function ExtensionsFromPreset(name: string): (r: set<string>)
    ensures forall e :: e in r ==> IsExtensionName(e)
    ensures r != {} ==> Lower(name) in Presets
  {
    PresetsAreExtensionNames();
    if Lower(name) in Presets then Presets[Lower(name)] else {}
  }

  /** Names that differ only in letter case select the same preset. */
  lemma PresetLookupIgnoresCase(name: string)
    ensures ExtensionsFromPreset(name) == ExtensionsFromPreset(Lower(name))
    ensures Lower(name) !in Presets ==> ExtensionsFromPreset(name) == {}
  {
    LowerOfLowerCase(Lower(name));
  }

  /** A preset name, written in any letter case, selects that preset's extensions. */
  lemma PresetLookupSelects(name: string, k: string)
    requires k in Presets && Lower(name) == k
    ensures ExtensionsFromPreset(name) == Presets[k]
  {
  }

  /** For instance, "Images" and "ARCHIVES" select their presets. */
  lemma PresetLookupMixedCase()
    ensures ExtensionsFromPreset("Images") == Presets["images"]
    ensures ExtensionsFromPreset("ARCHIVES") == Presets["archives"]
  {
    assert Lower("Images") == "images";
    PresetLookupSelects("Images", "images");
    assert Lower("ARCHIVES") == "archives";
    PresetLookupSelects("ARCHIVES", "archives");
  }

  /** One comma-separated part, stripped of white space and lower-cased. */
  function Normalize(part: string): string {
    Lower(Strip(part, IsSpace))
  }

  /** The normalised comma-separated parts of an extension string. */
  function Parts(s: string): (ps: seq<string>)
    ensures |ps| == |Split(s, ',')| >= 1
    ensures forall i :: 0 <= i < |ps| ==> IsLowerCase(ps[i]) && ',' !in ps[i]
    ensures forall i :: 0 <= i < |ps| && |ps[i]| > 0 ==>
      !IsSpace(ps[i][0]) && !IsSpace(ps[i][|ps[i]| - 1])
  {
    var raw := Split(s, ',');
    forall i | 0 <= i < |raw|
      ensures ',' !in Normalize(raw[i])
      ensures |Normalize(raw[i])| > 0 ==>
        !IsSpace(Normalize(raw[i])[0]) && !IsSpace(Normalize(raw[i])[|Normalize(raw[i])| - 1])
    {
      NormalizeShape(raw[i]);
    }
    MapEach(raw, Normalize)
  }

  /** A normalised piece of a comma-free string has no comma and no white space at either end. */
  lemma NormalizeShape(part: string)
    requires ',' !in part
    ensures ',' !in Normalize(part)
    ensures |Normalize(part)| > 0 ==>
      !IsSpace(Normalize(part)[0]) && !IsSpace(Normalize(part)[|Normalize(part)| - 1])
  {
    var t := Strip(part, IsSpace);
    assert ',' !in t by {
      TrimmedIsInfix(part, IsSpace);
    }
  }

  /** What a single normalised part adds to the result. */
  function Contribution(part: string): set<string> {
    if part in Presets then Presets[part]
    else if StartsWith(part, ".") then {part}
    else if part != "" then {"." + part}
    else {}
  }

  lemma ContributionShape(part: string)
    requires IsLowerCase(part)
    ensures forall e :: e in Contribution(part) ==> IsExtensionName(e)
  {
    PresetsAreExtensionNames();
    if part !in Presets && !StartsWith(part, ".") && part != "" {
      var e := "." + part;
      assert forall i :: 1 <= i < |e| ==> e[i] == part[i - 1];
    }
  }

  /** The union of the contributions of all parts. */
  function Collect(parts: seq<string>): (r: set<string>)
    ensures forall e :: e in r <==> exists i :: 0 <= i < |parts| && e in Contribution(parts[i])
    decreases |parts|
  {
    if |parts| == 0 then {}
    else
      var rest := Collect(parts[1..]);
      assert forall i :: 1 <= i < |parts| ==> parts[i] == parts[1..][i - 1];
      Contribution(parts[0]) + rest
  }

  /**
   * `parse_extensions`: the empty string, and any string from which no
   * extension is collected, yield the defaults; otherwise the union of the
   * parts' contributions.
   */
  function ParseExtensions(s: string): (r: set<string>)
    ensures s == "" ==> r == DefaultExtensions
    ensures r != {}
    ensures forall e :: e in r ==> IsExtensionName(e)
    ensures (s == "" || forall i :: 0 <= i < |Parts(s)| ==> Contribution(Parts(s)[i]) == {}) ==>
      r == DefaultExtensions
    ensures s != "" && (exists i :: 0 <= i < |Parts(s)| && Contribution(Parts(s)[i]) != {}) ==>
      forall e :: e in r <==> exists i :: 0 <= i < |Parts(s)| && e in Contribution(Parts(s)[i])
  {
    DefaultExtensionsListed();
    PresetsAreExtensionNames();
    if s == "" then DefaultExtensions
    else
      var ps := Parts(s);
      forall i | 0 <= i < |ps|
        ensures forall e :: e in Contribution(ps[i]) ==> IsExtensionName(e)
      {
        ContributionShape(ps[i]);
      }
      var result := Collect(ps);
      if result != {} then result else DefaultExtensions
  }

  /** Extensions collected from a string, before the fallback to the defaults. */
  function Collected(s: string): set<string> {
    Collect(Parts(s))
  }

  lemma ParseIsCollectedOrDefault(s: string)
    ensures ParseExtensions(s) == if s == "" || Collected(s) == {} then DefaultExtensions else Collected(s)
  {
  }

  lemma {:induction false} CollectConcat(a: seq<string>, b: seq<string>)
    ensures Collect(a + b) == Collect(a) + Collect(b)
  {
    forall e
      ensures e in Collect(a + b) <==> e in Collect(a) + Collect(b)
    {
      if e in Collect(a + b) {
        var i :| 0 <= i < |a + b| && e in Contribution((a + b)[i]);
        if i >= |a| {
          assert (a + b)[i] == b[i - |a|];
        }
      }
      if e in Collect(b) {
        var j :| 0 <= j < |b| && e in Contribution(b[j]);
        assert (a + b)[|a| + j] == b[j];
      }
      if e in Collect(a) {
        var j :| 0 <= j < |a| && e in Contribution(a[j]);
        assert (a + b)[j] == a[j];
      }
    }
  }

  /** Joining two extension strings with a comma collects the union of both. */
  lemma CollectedOfJoin(a: string, b: string)
    ensures Collected(a + "," + b) == Collected(a) + Collected(b)
  {
    SplitConcat(a, b, ',');
    assert a + "," + b == a + [','] + b;
    MapEachConcat(Split(a, ','), Split(b, ','), Normalize);
    CollectConcat(Parts(a), Parts(b));
  }

  lemma CollectedOfEmpty()
    ensures Collected("") == {}
  {
    assert Split("", ',') == [""];
    assert Strip("", IsSpace) == "";
    assert Normalize("") == "";
    assert Parts("") == [""];
    assert Contribution("") == {};
  }

  /** The order of the comma-separated parts does not matter. */
  lemma ParseCommutes(a: string, b: string)
    ensures ParseExtensions(a + "," + b) == ParseExtensions(b + "," + a)
  {
    CollectedOfJoin(a, b);
    CollectedOfJoin(b, a);
    ParseIsCollectedOrDefault(a + "," + b);
    ParseIsCollectedOrDefault(b + "," + a);
  }

  /** Repeating the whole list of parts does not change the result. */
  lemma ParseRepeat(a: string)
    ensures ParseExtensions(a + "," + a) == ParseExtensions(a)
  {
    CollectedOfJoin(a, a);
    ParseIsCollectedOrDefault(a + "," + a);
    ParseIsCollectedOrDefault(a);
    if a == "" {
      CollectedOfEmpty();
    }
  }

  /** A token: no comma and no white space. */
  predicate IsToken(t: string) {
    forall i :: 0 <= i < |t| ==> t[i] != ',' && !IsSpace(t[i])
  }

  /** A token with no capitals normalises to itself. */
  predicate IsCleanToken(t: string) {
    IsToken(t) && IsLowerCase(t)
  }

  /** Lower-casing a token gives a clean token. */
  lemma LowerToken(t: string)
    requires IsToken(t)
    ensures IsCleanToken(Lower(t))
  {
  }

  /**
   * White space around a token and capitals inside it do not matter: the
   * token parses like its lower-cased form.
   */
  lemma ParsePaddedToken(pre: string, t: string, post: string)
    requires IsToken(t) && t != ""
    requires forall i :: 0 <= i < |pre| ==> IsSpace(pre[i])
    requires forall i :: 0 <= i < |post| ==> IsSpace(post[i])
    ensures ParseExtensions(pre + t + post) == ParseExtensions(Lower(t))
  {
    var s := pre + t + post;
    assert forall i :: 0 <= i < |s| ==> s[i] != ',';
    SplitWithoutSep(s, ',');
    StripPadded(pre, t, post, IsSpace);
    PartsOfPiece(s);
    LowerToken(t);
    PartsOfCleanToken(Lower(t));
    ParseIsCollectedOrDefault(s);
    ParseIsCollectedOrDefault(Lower(t));
  }

  /** For instance, " Images " selects the images preset. */
  lemma ParsePaddedPreset()
    ensures ParseExtensions(" Images ") == Presets["images"]
  {
    ImagesToken();
    ParsePaddedToken(" ", "Images", " ");
    ParsePresetName("images");
  }

  lemma ImagesToken()
    ensures IsToken("Images") && Lower("Images") == "images"
    ensures " Images " == " " + "Images" + " "
  {
  }

  lemma PartsOfCleanToken(t: string)
    requires IsCleanToken(t)
    ensures Parts(t) == [t]
  {
    SplitWithoutSep(t, ',');
    StripKeepsClean(t, IsSpace);
    LowerOfLowerCase(t);
    PartsOfPiece(t);
  }

  /** A string without commas is a single part. */
  lemma PartsOfPiece(s: string)
    requires Split(s, ',') == [s]
    ensures Parts(s) == [Normalize(s)]
  {
    var raw := Split(s, ',');
    var ps := Parts(s);
    assert ps == MapEach(raw, Normalize);
    assert |ps| == 1 && ps[0] == Normalize(raw[0]);
  }

  /** Small ASCII letters only. */
  predicate IsWord(t: string) {
    forall i :: 0 <= i < |t| ==> 'a' <= t[i] <= 'z'
  }

  lemma WordIsClean(t: string)
    requires IsWord(t)
    ensures IsCleanToken(t)
  {
  }

  lemma PresetNamesAreClean()
    ensures forall k :: k in Presets ==> IsCleanToken(k)
  {
    assert Presets.Keys == {"images", "documents", "archives", "audio", "video", "code", "midi", "arc", "all"};
    forall k | k in Presets
      ensures IsCleanToken(k)
    {
      assert IsWord(k);
      WordIsClean(k);
    }
  }

  /** A preset name on its own selects exactly that preset (unless the preset is empty). */
  lemma ParsePresetName(name: string)
    requires name in Presets && Presets[name] != {}
    ensures ParseExtensions(name) == Presets[name]
  {
    PresetNamesAreClean();
    PartsOfCleanToken(name);
    ParseIsCollectedOrDefault(name);
  }

  /** A dotted token that is not a preset name is kept as it is. */
  lemma ParseDottedToken(t: string)
    requires IsCleanToken(t) && StartsWith(t, ".") && t !in Presets
    ensures ParseExtensions(t) == {t}
  {
    PartsOfCleanToken(t);
    ParseIsCollectedOrDefault(t);
  }

  /** A bare token that is not a preset name gains a leading dot. */
  lemma ParseBareToken(t: string)
    requires IsCleanToken(t) && t != "" && !StartsWith(t, ".") && t !in Presets
    ensures ParseExtensions(t) == {"." + t}
  {
    PartsOfCleanToken(t);
    ParseIsCollectedOrDefault(t);
  }

  /**
   * The "all" preset is empty, so on its own it collects nothing and the
   * parser falls back to the defaults: "all" never reaches the crawler as
   * "any extension" through this parser.
   */
  lemma ParseAllFallsBack()
    ensures ParseExtensions("all") == DefaultExtensions
  {
    assert IsWord("all");
    WordIsClean("all");
    PartsOfCleanToken("all");
    ParseIsCollectedOrDefault("all");
  }
}

=== FILE: crawler.dfy ===
/**
 * `crawl`: a breadth-first walk over the pages of the seed's domain that
 * downloads every linked file with a wanted extension. HTTP, robots.txt
 * loading and the file system are parameters of the model (`Environment`);
 * the order in which a page's set of file links is visited is an arbitrary
 * choice, as Python's set iteration order is.
 */
module Crawler {
  import opened Wrappers
  import opened Urls
  import opened Dedup
  import opened Robots
  import opened Download
  import opened PageSave
  import opened Links
  import Config

  /** A fetched page: its anchor and image links, already resolved against the page's URL. */
  datatype Page = Page(anchors: seq<Url>, images: seq<Url>)

  /** The arguments of `crawl` the model keeps; `None` stands for an argument left at `None`. */
  datatype Job = Job(
    startUrl: Url,
    allowedExts: Option<set<string>>,
    maxPages: Option<int>,
    maxDepth: Option<int>,
    respectRobots: bool,
    detectDuplicates: bool,
    savePages: bool)

  /**
   * The world outside the crawler: page and file requests (`None` when the
   * request raises or the status is an error), file writes, robots.txt
   * loading, and the names present in the download directory and in its
   * `html` sub-directory when the crawl starts.
   */
  datatype Environment = Environment(
    fetchPage: Url -> Option<Page>,
    fetchFile: Url -> Option<Content>,
    writeFile: string -> WriteOutcome,
    writePage: string -> WriteOutcome,
    loadRobots: Url -> Option<Policy>,
    outDir: set<string>,
    htmlDir: set<string>)

  /** The statistics dictionary `crawl` returns. */
  datatype Stats = Stats(
    pagesCrawled: nat,
    filesDownloaded: nat,
    pagesSaved: nat,
    errors: nat,
    duplicatesSkipped: nat,
    robotsBlocked: nat)

  /** The crawl's arguments after the defaults are applied and the helpers are built. */
  datatype Settings = Settings(
    seed: Url,
    allowed: set<string>,
    maxPages: int,
    maxDepth: Option<int>,
    robots: Option<RobotsChecker>,
    savePages: bool,
    detectDuplicates: bool)

  /**
   * The defaults replace only arguments that were not given at all: an empty
   * extension set passed in stays empty. The robots.txt checker is built
   * exactly when robots checking is asked for.
   */
  function Resolve(job: Job, env: Environment): (cfg: Settings)
    ensures cfg.seed == job.startUrl
    ensures job.allowedExts.Some? ==> cfg.allowed == job.allowedExts.value
    ensures job.allowedExts.None? ==> cfg.allowed == Config.DefaultExtensions
    ensures job.maxPages.Some? ==> cfg.maxPages == job.maxPages.value
    ensures job.maxPages.None? ==> cfg.maxPages == Config.DefaultMaxPages
    ensures cfg.robots.Some? <==> job.respectRobots
  {
    Settings(
      job.startUrl,
      job.allowedExts.GetOr(Config.DefaultExtensions),
      job.maxPages.GetOr(Config.DefaultMaxPages),
      job.maxDepth,
      if job.respectRobots then Some(LoadChecker(job.startUrl, env.loadRobots)) else None,
      job.savePages,
      job.detectDuplicates)
  }

  /** No checker, or a checker that allows the URL. */
  predicate RobotsAllow(cfg: Settings, url: Url) {
    cfg.robots.None? || CanFetch(cfg.robots.value, url)
  }

  /** The names the download directory holds at the start: `html` joins them when pages are saved. */
  function InitialFiles(cfg: Settings, env: Environment): set<string> {
    if cfg.savePages then env.outDir + {"html"} else env.outDir
  }

  /** What happens to an entry taken from the front of the queue, before any request. */
  datatype Verdict = AlreadyVisited | TooDeep | RobotsBlocked | Admitted

  function Admission(cfg: Settings, visited: set<Url>, e: Entry): (v: Verdict)
    ensures v == AlreadyVisited <==> e.url in visited
    ensures v == TooDeep <==> e.url !in visited && !WithinDepth(e.depth, cfg.maxDepth)
    ensures v == RobotsBlocked <==>
      e.url !in visited && WithinDepth(e.depth, cfg.maxDepth) && !RobotsAllow(cfg, e.url)
    ensures v == Admitted <==>
      e.url !in visited && WithinDepth(e.depth, cfg.maxDepth) && RobotsAllow(cfg, e.url)
  {
    if e.url in visited then AlreadyVisited
    else if cfg.maxDepth.Some? && e.depth > cfg.maxDepth.value then TooDeep
    else if cfg.robots.Some? && !CanFetch(cfg.robots.value, e.url) then RobotsBlocked
    else Admitted
  }

  /** The scan inputs for the links of the page of entry `e`. */
  function ScopeOf(cfg: Settings, visited: set<Url>, e: Entry): Scope {
    Scope(visited, cfg.allowed, cfg.seed.netloc, e.depth, cfg.maxDepth)
  }

  /** The set `file_urls` of one page: files from its anchors and from its images. */
  function PageFiles(cfg: Settings, visited: set<Url>, e: Entry, page: Page): set<Url> {
    ScanAnchors(page.anchors, ScopeOf(cfg, visited, e)).files + ScanImages(page.images, cfg.allowed)
  }

  /** One call of `download_file`: the URL, the file name it derived and the reason it returned. */
  datatype Attempt = Attempt(url: Url, filename: string, reason: Reason)

  /** How many attempts returned reason `r`. */
  function CountReason(log: seq<Attempt>, r: Reason): (n: nat)
    ensures n <= |log|
    decreases |log|
  {
    if |log| == 0 then 0
    else (if log[0].reason == r then 1 else 0) + CountReason(log[1..], r)
  }

  /** The elements of a finite set, each once, in some order. */
  method Enumerate<T>(s: set<T>) returns (xs: seq<T>)
    ensures |xs| == |s|
    ensures forall i :: 0 <= i < |xs| ==> xs[i] in s
    ensures forall x :: x in s ==> x in xs
    ensures forall i, j :: 0 <= i < j < |xs| ==> xs[i] != xs[j]
  {
    xs := [];
    var remaining := s;
    while remaining != {}
      invariant remaining <= s
      invariant |xs| + |remaining| == |s|
      invariant forall i :: 0 <= i < |xs| ==> xs[i] in s && xs[i] !in remaining
      invariant forall x :: x in s && x !in remaining ==> x in xs
      invariant forall i, j :: 0 <= i < j < |xs| ==> xs[i] != xs[j]
      decreases |remaining|
    {
      var x :| x in remaining;
      xs := xs + [x];
      remaining := remaining - {x};
    }
  }

  /** What a run of downloads leaves behind: the directory, the detector and the attempts in order. */
  datatype Batch = Batch(files: set<string>, detector: Option<Detector>, log: seq<Attempt>)

  /** `download_file` on each URL in turn, each call seeing the directory and detector the previous one left. */
  function DownloadAll(order: seq<Url>, files: set<string>, det: Option<Detector>, env: Environment): Batch
    decreases |order|
  {
    if |order| == 0 then Batch(files, det, [])
    else
      var step := DownloadFile(order[0], files, det, env.fetchFile, env.writeFile);
      var rest := DownloadAll(order[1..], step.files, step.detector, env);
      Batch(rest.files, rest.detector, [Attempt(order[0], Basename(order[0].path), step.reason)] + rest.log)
  }

  /** One attempt per URL, in order, each naming the URL's basename; `no_filename` exactly for an empty one. */
  lemma {:induction false} DownloadAllLog(order: seq<Url>, files: set<string>, det: Option<Detector>, env: Environment)
    ensures |DownloadAll(order, files, det, env).log| == |order|
    ensures forall i :: 0 <= i < |order| ==>
      && DownloadAll(order, files, det, env).log[i].url == order[i]
      && DownloadAll(order, files, det, env).log[i].filename == Basename(order[i].path)
      && (DownloadAll(order, files, det, env).log[i].reason == NoFilename <==> Basename(order[i].path) == "")
    decreases |order|
  {
    if |order| > 0 {
      var step := DownloadFile(order[0], files, det, env.fetchFile, env.writeFile);
      var rest := DownloadAll(order[1..], step.files, step.detector, env);
      DownloadAllLog(order[1..], step.files, step.detector, env);
      var log := DownloadAll(order, files, det, env).log;
      assert log == [Attempt(order[0], Basename(order[0].path), step.reason)] + rest.log;
      forall i | 0 < i < |order|
        ensures log[i] == rest.log[i - 1] && order[i] == order[1..][i - 1]
      {
      }
    }
  }

  /**
   * The directory only grows, and every success wrote a name that was absent
   * before the run and present after it.
   */
  lemma {:induction false} DownloadAllNames(order: seq<Url>, files: set<string>, det: Option<Detector>, env: Environment)
    ensures files <= DownloadAll(order, files, det, env).files
    ensures forall i ::
      (0 <= i < |DownloadAll(order, files, det, env).log| &&
       DownloadAll(order, files, det, env).log[i].reason == Success) ==>
      && DownloadAll(order, files, det, env).log[i].filename !in files
      && DownloadAll(order, files, det, env).log[i].filename in DownloadAll(order, files, det, env).files
    decreases |order|
  {
    if |order| > 0 {
      var step := DownloadFile(order[0], files, det, env.fetchFile, env.writeFile);
      var rest := DownloadAll(order[1..], step.files, step.detector, env);
      DownloadAllNames(order[1..], step.files, step.detector, env);
      var b := DownloadAll(order, files, det, env);
      assert b.log == [Attempt(order[0], Basename(order[0].path), step.reason)] + rest.log;
      forall i | 0 <= i < |b.log| && b.log[i].reason == Success
        ensures b.log[i].filename !in files && b.log[i].filename in b.files
      {
        if i > 0 {
          assert b.log[i] == rest.log[i - 1];
        }
      }
    }
  }

  /** There are no more successes than new names in the directory. */
  lemma {:induction false} DownloadAllCount(order: seq<Url>, files: set<string>, det: Option<Detector>, env: Environment)
    ensures CountReason(DownloadAll(order, files, det, env).log, Success) <=
      |DownloadAll(order, files, det, env).files| - |files|
    decreases |order|
  {
    if |order| > 0 {
      var step := DownloadFile(order[0], files, det, env.fetchFile, env.writeFile);
      var rest := DownloadAll(order[1..], step.files, step.detector, env);
      DownloadAllCount(order[1..], step.files, step.detector, env);
      var b := DownloadAll(order, files, det, env);
      assert b.log == [Attempt(order[0], Basename(order[0].path), step.reason)] + rest.log;
      assert b.log[1..] == rest.log;
      assert |step.files| >= |files| + (if step.reason == Success then 1 else 0);
    }
  }

  /** The detector is kept or left out for the whole run; without one nothing is a duplicate. */
  lemma {:induction false} DownloadAllKeepsDetector(order: seq<Url>, files: set<string>, det: Option<Detector>, env: Environment)
    ensures det.None? <==> DownloadAll(order, files, det, env).detector.None?
    ensures det.None? ==> CountReason(DownloadAll(order, files, det, env).log, Duplicate) == 0
    decreases |order|
  {
    if |order| > 0 {
      var step := DownloadFile(order[0], files, det, env.fetchFile, env.writeFile);
      DownloadAllKeepsDetector(order[1..], step.files, step.detector, env);
      var b := DownloadAll(order, files, det, env);
      assert b.log[1..] == DownloadAll(order[1..], step.files, step.detector, env).log;
    }
  }

  /** With a detector, it only grows, by at least one content per success. */
  lemma {:induction false} DownloadAllSeen(order: seq<Url>, files: set<string>, d: Detector, env: Environment)
    ensures DownloadAll(order, files, Some(d), env).detector.Some?
    ensures d.seen <= DownloadAll(order, files, Some(d), env).detector.value.seen
    ensures CountReason(DownloadAll(order, files, Some(d), env).log, Success) <=
      |DownloadAll(order, files, Some(d), env).detector.value.seen| - |d.seen|
    decreases |order|
  {
    if |order| > 0 {
      var step := DownloadFile(order[0], files, Some(d), env.fetchFile, env.writeFile);
      var d1 := step.detector.value;
      DownloadAllSeen(order[1..], step.files, d1, env);
      var b := DownloadAll(order, files, Some(d), env);
      assert b.log[1..] == DownloadAll(order[1..], step.files, step.detector, env).log;
      assert d.seen <= d1.seen;
      assert |d1.seen| >= |d.seen| + (if step.reason == Success then 1 else 0);
    }
  }

  lemma LogCovers(order: seq<Url>, log: seq<Attempt>, batch: set<Url>)
    requires |log| == |order|
    requires forall i :: 0 <= i < |log| ==> log[i].url == order[i]
    requires forall u :: u in batch ==> u in order
    ensures forall u :: u in batch ==> exists i :: 0 <= i < |log| && log[i].url == u
  {
    forall u | u in batch
      ensures exists i :: 0 <= i < |log| && log[i].url == u
    {
      var i :| 0 <= i < |order| && order[i] == u;
      assert log[i].url == u;
    }
  }

  /** Running the loop over an enumeration of the batch tries every URL of it exactly once. */
  lemma BatchCoverage(batch: set<Url>, order: seq<Url>, files0: set<string>, det0: Option<Detector>, env: Environment, b: Batch)
    requires |order| == |batch|
    requires forall i :: 0 <= i < |order| ==> order[i] in batch
    requires forall u :: u in batch ==> u in order
    requires forall i, j :: 0 <= i < j < |order| ==> order[i] != order[j]
    requires b == DownloadAll(order, files0, det0, env)
    ensures |b.log| == |batch|
    ensures forall i :: 0 <= i < |b.log| ==> b.log[i].url in batch
    ensures forall u :: u in batch ==> exists i :: 0 <= i < |b.log| && b.log[i].url == u
    ensures forall i, j :: 0 <= i < j < |b.log| ==> b.log[i].url != b.log[j].url
  {
    DownloadAllLog(order, files0, det0, env);
    LogCovers(order, b.log, batch);
  }

  /** Every attempt names its file by the basename; a success adds a name that was new. */
  lemma BatchNames(order: seq<Url>, files0: set<string>, det0: Option<Detector>, env: Environment, b: Batch)
    requires b == DownloadAll(order, files0, det0, env)
    ensures forall i :: 0 <= i < |b.log| ==> b.log[i].filename == Basename(b.log[i].url.path)
    ensures forall i :: 0 <= i < |b.log| ==> (b.log[i].reason == NoFilename <==> b.log[i].filename == "")
    ensures forall i :: 0 <= i < |b.log| && b.log[i].reason == Success ==>
      b.log[i].filename !in files0 && b.log[i].filename in b.files
    ensures files0 <= b.files
    ensures CountReason(b.log, Success) <= |b.files| - |files0|
  {
    DownloadAllLog(order, files0, det0, env);
    DownloadAllNames(order, files0, det0, env);
    DownloadAllCount(order, files0, det0, env);
  }

  /** The detector is kept or absent throughout, and it learns a content per success. */
  lemma BatchDetector(order: seq<Url>, files0: set<string>, det0: Option<Detector>, env: Environment, b: Batch)
    requires b == DownloadAll(order, files0, det0, env)
    ensures det0.None? <==> b.detector.None?
    ensures det0.None? ==> CountReason(b.log, Duplicate) == 0
    ensures det0.Some? ==> det0.value.seen <= b.detector.value.seen
    ensures det0.Some? ==> CountReason(b.log, Success) <= |b.detector.value.seen| - |det0.value.seen|
  {
    DownloadAllKeepsDetector(order, files0, det0, env);
    if det0.Some? {
      DownloadAllSeen(order, files0, det0.value, env);
    }
  }

  /**
   * The download loop of one page: every URL of the batch is tried once, in
   * some order. A success always adds a name that was not there before and,
   * with a detector, a content it had not seen.
   */
  method DownloadBatch(batch: set<Url>, files0: set<string>, det0: Option<Detector>, env: Environment)
    returns (b: Batch, order: seq<Url>)
    ensures |order| == |batch|
    ensures forall i :: 0 <= i < |order| ==> order[i] in batch
    ensures forall i, j :: 0 <= i < j < |order| ==> order[i] != order[j]
    ensures b == DownloadAll(order, files0, det0, env)
    ensures |b.log| == |batch|
    ensures forall i :: 0 <= i < |b.log| ==> b.log[i].url in batch
    ensures forall u :: u in batch ==> exists i :: 0 <= i < |b.log| && b.log[i].url == u
    ensures forall i, j :: 0 <= i < j < |b.log| ==> b.log[i].url != b.log[j].url
    ensures forall i :: 0 <= i < |b.log| ==> b.log[i].filename == Basename(b.log[i].url.path)
    ensures forall i :: 0 <= i < |b.log| ==> (b.log[i].reason == NoFilename <==> b.log[i].filename == "")
    ensures forall i :: 0 <= i < |b.log| && b.log[i].reason == Success ==>
      b.log[i].filename !in files0 && b.log[i].filename in b.files
    ensures files0 <= b.files
    ensures CountReason(b.log, Success) <= |b.files| - |files0|
    ensures det0.None? <==> b.detector.None?
    ensures det0.None? ==> CountReason(b.log, Duplicate) == 0
    ensures det0.Some? ==> det0.value.seen <= b.detector.value.seen
    ensures det0.Some? ==> CountReason(b.log, Success) <= |b.detector.value.seen| - |det0.value.seen|
  {
    order := Enumerate(batch);
    b := DownloadAll(order, files0, det0, env);
    BatchCoverage(batch, order, files0, det0, env, b);
    BatchNames(order, files0, det0, env, b);
    BatchDetector(order, files0, det0, env, b);
  }

  /** The crawler's state between two iterations of its loop. */
  datatype State = State(
    queue: seq<Entry>,
    visited: set<Url>,
    stats: Stats,
    files: set<string>,
    pages: set<string>,
    detector: Option<Detector>,
    crawled: seq<Entry>,
    blocked: seq<Entry>)

  function Initial(cfg: Settings, env: Environment): State {
    State(
      [Entry(cfg.seed, 0)], {}, Stats(0, 0, 0, 0, 0, 0),
      InitialFiles(cfg, env), env.htmlDir,
      if cfg.detectDuplicates then Some(Fresh) else None,
      [], [])
  }

  /**
   * What an entry in the queue or among the crawled pages looks like: the
   * seed at depth 0, or a same-domain link without fragment found below it.
   */
  predicate Shaped(cfg: Settings, e: Entry) {
    if e.depth == 0 then e.url == cfg.seed
    else e.depth > 0 && e.url.netloc == cfg.seed.netloc && e.url.fragment.None?
  }

  /** Depths never decrease along the sequence. */
  predicate DepthOrdered(es: seq<Entry>) {
    forall i, j :: 0 <= i <= j < |es| ==> es[i].depth <= es[j].depth
  }

  /** The URLs of some entries. */
  function UrlsOf(es: seq<Entry>): set<Url> {
    set i | 0 <= i < |es| :: es[i].url
  }

  lemma UrlsOfSnoc(es: seq<Entry>, e: Entry)
    ensures UrlsOf(es + [e]) == UrlsOf(es) + {e.url}
  {
    var es' := es + [e];
    forall u | u in UrlsOf(es') ensures u in UrlsOf(es) + {e.url} {
      var i :| 0 <= i < |es'| && es'[i].url == u;
      if i < |es| {
        assert es[i].url == u;
      }
    }
    forall u | u in UrlsOf(es) ensures u in UrlsOf(es') {
      var i :| 0 <= i < |es| && es[i].url == u;
      assert es'[i].url == u;
    }
    assert es'[|es|].url == e.url;
  }

  /** How many crawled pages could not be fetched. */
  function CountFailed(es: seq<Entry>, fetch: Url -> Option<Page>): nat
    decreases |es|
  {
    if |es| == 0 then 0
    else CountFailed(es[..|es| - 1], fetch) + (if fetch(es[|es| - 1].url).None? then 1 else 0)
  }

  lemma CountFailedSnoc(es: seq<Entry>, e: Entry, fetch: Url -> Option<Page>)
    ensures CountFailed(es + [e], fetch) == CountFailed(es, fetch) + (if fetch(e.url).None? then 1 else 0)
  {
    assert (es + [e])[..|es|] == es;
  }

  /** The counters agree with the record of crawled and refused entries. */
  predicate Bookkeeping(env: Environment, st: State) {
    && st.stats.pagesCrawled == |st.crawled|
    && st.visited == UrlsOf(st.crawled)
    && st.stats.robotsBlocked == |st.blocked|
    && st.stats.errors == CountFailed(st.crawled, env.fetchPage)
  }

  /**
   * Each page is crawled at most once, within the depth limit and with the
   * robots checker's consent; the seed comes first; every refused entry was
   * refused by the checker.
   */
  predicate Admissions(cfg: Settings, st: State) {
    && (forall i, j :: 0 <= i < j < |st.crawled| ==> st.crawled[i].url != st.crawled[j].url)
    && (forall i :: 0 <= i < |st.crawled| ==>
          WithinDepth(st.crawled[i].depth, cfg.maxDepth) && RobotsAllow(cfg, st.crawled[i].url))
    && (forall i :: 0 <= i < |st.blocked| ==> !RobotsAllow(cfg, st.blocked[i].url))
    && (forall i :: 0 <= i < |st.queue| ==> Shaped(cfg, st.queue[i]))
    && (forall i :: 0 <= i < |st.crawled| ==> Shaped(cfg, st.crawled[i]))
    && (|st.crawled| > 0 ==> st.crawled[0] == Entry(cfg.seed, 0))
    && (|st.crawled| == 0 ==> st.queue == [] || st.queue == [Entry(cfg.seed, 0)])
  }

  /**
   * Breadth-first order: pages are crawled by non-decreasing depth, the queue
   * holds at most two consecutive depths in order, and nothing crawled is
   * deeper than anything still queued.
   */
  predicate BreadthFirst(st: State) {
    && DepthOrdered(st.crawled)
    && DepthOrdered(st.queue)
    && (forall j :: 0 <= j < |st.queue| ==> st.queue[j].depth <= st.queue[0].depth + 1)
    && (forall i, j :: 0 <= i < |st.crawled| && 0 <= j < |st.queue| ==> st.crawled[i].depth <= st.queue[j].depth)
  }

  /**
   * Nothing is overwritten: every download and every saved page is a name
   * that did not exist before the crawl; with a detector, every download is
   * a distinct content; without page saving the `html` directory is not touched.
   */
  predicate Storage(cfg: Settings, env: Environment, st: State) {
    && InitialFiles(cfg, env) <= st.files
    && st.stats.filesDownloaded <= |st.files| - |InitialFiles(cfg, env)|
    && env.htmlDir <= st.pages
    && st.stats.pagesSaved <= |st.pages| - |env.htmlDir|
    && st.stats.pagesSaved <= st.stats.pagesCrawled
    && (!cfg.savePages ==> st.pages == env.htmlDir && st.stats.pagesSaved == 0)
    && (st.detector.Some? <==> cfg.detectDuplicates)
    && (st.detector.None? ==> st.stats.duplicatesSkipped == 0)
    && (st.detector.Some? ==> st.stats.filesDownloaded <= |st.detector.value.seen|)
  }

  /** The crawler's loop invariant. */
  predicate Valid(cfg: Settings, env: Environment, st: State) {
    && Bookkeeping(env, st)
    && Admissions(cfg, st)
    && BreadthFirst(st)
    && Storage(cfg, env, st)
    && (st.stats.pagesCrawled == 0 || st.stats.pagesCrawled <= cfg.maxPages)
  }

  lemma InitialValid(cfg: Settings, env: Environment)
    ensures Valid(cfg, env, Initial(cfg, env))
  {
    assert UrlsOf([]) == {};
  }

  /** Dropping the front of the queue, with no other change, keeps the invariant. */
  lemma PopValid(cfg: Settings, env: Environment, st: State)
    requires Valid(cfg, env, st) && |st.queue| > 0
    ensures Valid(cfg, env, st.(queue := st.queue[1..]))
  {
    var q := st.queue;
    var q' := q[1..];
    forall j | 0 <= j < |q'| ensures q'[j] == q[j + 1] && q[0].depth <= q'[0].depth {
    }
  }

  /** Refusing the front entry by robots.txt keeps the invariant. */
  lemma BlockValid(cfg: Settings, env: Environment, st: State)
    requires Valid(cfg, env, st) && |st.queue| > 0
    requires Admission(cfg, st.visited, st.queue[0]) == RobotsBlocked
    ensures Valid(cfg, env, st.(queue := st.queue[1..], blocked := st.blocked + [st.queue[0]],
                                stats := st.stats.(robotsBlocked := st.stats.robotsBlocked + 1)))
  {
    PopValid(cfg, env, st);
  }

  /** No counter decreases. */
  predicate Grows(before: Stats, after: Stats) {
    && before.pagesCrawled <= after.pagesCrawled
    && before.filesDownloaded <= after.filesDownloaded
    && before.pagesSaved <= after.pagesSaved
    && before.errors <= after.errors
    && before.duplicatesSkipped <= after.duplicatesSkipped
    && before.robotsBlocked <= after.robotsBlocked
  }

  /** The state right after the front entry is admitted: visited, counted, and off the queue. */
  function Admit(st: State): State
    requires |st.queue| > 0
  {
    var e := st.queue[0];
    st.(queue := st.queue[1..], visited := st.visited + {e.url}, crawled := st.crawled + [e],
        stats := st.stats.(pagesCrawled := st.stats.pagesCrawled + 1))
  }

  /** The state after a page that could not be fetched. */
  function Fail(st: State): State {
    st.(stats := st.stats.(errors := st.stats.errors + 1))
  }

  lemma AdmitBookkeeping(env: Environment, st: State)
    requires Bookkeeping(env, st) && |st.queue| > 0
    ensures env.fetchPage(st.queue[0].url).None? ==> Bookkeeping(env, Fail(Admit(st)))
    ensures env.fetchPage(st.queue[0].url).Some? ==> Bookkeeping(env, Admit(st))
  {
    UrlsOfSnoc(st.crawled, st.queue[0]);
    CountFailedSnoc(st.crawled, st.queue[0], env.fetchPage);
  }

  lemma AdmitAdmissions(cfg: Settings, st: State)
    requires Admissions(cfg, st) && |st.queue| > 0 && st.visited == UrlsOf(st.crawled)
    requires Admission(cfg, st.visited, st.queue[0]) == Admitted
    ensures Admissions(cfg, Admit(st))
  {
    var e := st.queue[0];
    var c := st.crawled + [e];
    assert forall i :: 0 <= i < |st.crawled| ==> st.crawled[i].url in UrlsOf(st.crawled);
    forall i, j | 0 <= i < j < |c| ensures c[i].url != c[j].url {
      if j == |st.crawled| {
        assert c[i] == st.crawled[i];
      }
    }
    var q' := st.queue[1..];
    assert forall j :: 0 <= j < |q'| ==> q'[j] == st.queue[j + 1];
  }

  lemma AdmitBreadthFirst(st: State)
    requires BreadthFirst(st) && |st.queue| > 0
    ensures BreadthFirst(Admit(st))
  {
    var q := st.queue;
    var q' := q[1..];
    forall j | 0 <= j < |q'| ensures q'[j] == q[j + 1] && q[0].depth <= q'[0].depth {
    }
  }

  /** Admitting the front entry keeps the invariant, counting an error when its fetch fails. */
  lemma AdmitValid(cfg: Settings, env: Environment, st: State)
    requires Valid(cfg, env, st) && |st.queue| > 0 && st.stats.pagesCrawled < cfg.maxPages
    requires Admission(cfg, st.visited, st.queue[0]) == Admitted
    ensures env.fetchPage(st.queue[0].url).None? ==> Valid(cfg, env, Fail(Admit(st)))
    ensures env.fetchPage(st.queue[0].url).Some? ==> Valid(cfg, env, Admit(st))
  {
    AdmitBookkeeping(env, st);
    AdmitAdmissions(cfg, st);
    AdmitBreadthFirst(st);
  }

  /** After the admission the entry is the last crawled page and the queue lies at its depth or one below. */
  lemma AdmitFront(cfg: Settings, env: Environment, st: State)
    requires Valid(cfg, env, st) && |st.queue| > 0
    ensures Admit(st).stats.pagesSaved < Admit(st).stats.pagesCrawled
    ensures |Admit(st).crawled| > 0 && Admit(st).crawled[|Admit(st).crawled| - 1] == st.queue[0]
    ensures forall j :: 0 <= j < |Admit(st).queue| ==>
      st.queue[0].depth <= Admit(st).queue[j].depth <= st.queue[0].depth + 1
  {
    var q := st.queue;
    assert forall j :: 0 <= j < |q| - 1 ==> Admit(st).queue[j] == q[j + 1];
  }

  /** Appending entries one level below the last crawled page keeps the queue breadth-first. */
  lemma EnqueueBreadthFirst(st: State, e: Entry, pages: seq<Entry>, next: State)
    requires BreadthFirst(st)
    requires next.queue == st.queue + pages && next.crawled == st.crawled
    requires |st.crawled| > 0 && st.crawled[|st.crawled| - 1] == e
    requires forall j :: 0 <= j < |st.queue| ==> e.depth <= st.queue[j].depth <= e.depth + 1
    requires forall k :: 0 <= k < |pages| ==> pages[k].depth == e.depth + 1
    ensures BreadthFirst(next)
  {
    var q := st.queue + pages;
    AppendWithin(st.queue, pages, e.depth);
    AppendOrdered(st.queue, pages, e.depth + 1);
    CrawledBelow(st.crawled, e);
    assert |q| > 0 ==> q[0].depth >= e.depth;
  }

  /** Appending entries at one depth to entries within a band keeps them in the band. */
  lemma AppendWithin(q: seq<Entry>, pages: seq<Entry>, d: int)
    requires forall j :: 0 <= j < |q| ==> d <= q[j].depth <= d + 1
    requires forall k :: 0 <= k < |pages| ==> pages[k].depth == d + 1
    ensures forall j :: 0 <= j < |q + pages| ==> d <= (q + pages)[j].depth <= d + 1
  {
    forall j | 0 <= j < |q + pages| ensures d <= (q + pages)[j].depth <= d + 1 {
      if j >= |q| {
        assert (q + pages)[j] == pages[j - |q|];
      }
    }
  }

  /** Appending entries at the deepest depth keeps a sequence ordered by depth. */
  lemma AppendOrdered(q: seq<Entry>, pages: seq<Entry>, d: int)
    requires DepthOrdered(q)
    requires forall j :: 0 <= j < |q| ==> q[j].depth <= d
    requires forall k :: 0 <= k < |pages| ==> pages[k].depth == d
    ensures DepthOrdered(q + pages)
  {
    var r := q + pages;
    forall i, j | 0 <= i <= j < |r| ensures r[i].depth <= r[j].depth {
      if j >= |q| {
        assert r[j] == pages[j - |q|];
        if i >= |q| {
          assert r[i] == pages[i - |q|];
        }
      }
    }
  }

  /** In a depth-ordered sequence no entry is deeper than the last one. */
  lemma CrawledBelow(crawled: seq<Entry>, e: Entry)
    requires DepthOrdered(crawled) && |crawled| > 0 && crawled[|crawled| - 1] == e
    ensures forall i :: 0 <= i < |crawled| ==> crawled[i].depth <= e.depth
  {
  }


  /** Appending same-domain entries without fragment below the seed keeps every queued entry shaped. */
  lemma EnqueueAdmissions(cfg: Settings, st: State, pages: seq<Entry>, next: State)
    requires Admissions(cfg, st) && |st.crawled| > 0
    requires next.queue == st.queue + pages && next.crawled == st.crawled && next.blocked == st.blocked
    requires forall k :: 0 <= k < |pages| ==>
      pages[k].depth > 0 && pages[k].url.netloc == cfg.seed.netloc && pages[k].url.fragment.None?
    ensures Admissions(cfg, next)
  {
    var q := st.queue + pages;
    forall i | 0 <= i < |q| ensures Shaped(cfg, q[i]) {
      if i >= |st.queue| {
        assert q[i] == pages[i - |st.queue|];
      }
    }
  }

  /**
   * The storage part of the invariant after a visit that saved the page
   * under `name` or not, and downloaded `n` new files among which `d` were
   * found to be duplicates.
   */
  lemma VisitStorage(cfg: Settings, env: Environment, st: State, next: State, name: string, n: nat, d: nat)
    requires Storage(cfg, env, st) && st.stats.pagesSaved < st.stats.pagesCrawled
    requires next.stats.pagesCrawled == st.stats.pagesCrawled
    requires !cfg.savePages ==> next.pages == st.pages && next.stats.pagesSaved == st.stats.pagesSaved
    requires next.pages == st.pages || next.pages == st.pages + {name}
    requires || next.stats.pagesSaved == st.stats.pagesSaved
             || (next.stats.pagesSaved == st.stats.pagesSaved + 1 && name !in st.pages && next.pages == st.pages + {name})
    requires st.files <= next.files && n <= |next.files| - |st.files|
    requires next.stats.filesDownloaded == st.stats.filesDownloaded + n
    requires next.stats.duplicatesSkipped == st.stats.duplicatesSkipped + d
    requires st.detector.None? <==> next.detector.None?
    requires st.detector.None? ==> d == 0
    requires st.detector.Some? ==>
      st.detector.value.seen <= next.detector.value.seen && n <= |next.detector.value.seen| - |st.detector.value.seen|
    ensures Storage(cfg, env, next)
  {
    SubsetSize(st.files, next.files);
    SubsetSize(st.pages, next.pages);
  }

  /** A subset is no larger than its superset. */
  lemma SubsetSize<T>(a: set<T>, b: set<T>)
    requires a <= b
    ensures |a| <= |b|
  {
    assert b == a + (b - a);
  }

  /** A visit leaves the record of crawled and refused entries alone, so only the other parts need proof. */
  lemma VisitValid(cfg: Settings, env: Environment, st: State, next: State)
    requires Valid(cfg, env, st)
    requires next.visited == st.visited && next.crawled == st.crawled && next.blocked == st.blocked
    requires next.stats.pagesCrawled == st.stats.pagesCrawled
    requires next.stats.errors == st.stats.errors && next.stats.robotsBlocked == st.stats.robotsBlocked
    requires Admissions(cfg, next) && BreadthFirst(next) && Storage(cfg, env, next)
    ensures Valid(cfg, env, next)
  {
  }

  /**
   * The work on a page that was fetched: it is saved when pages are saved,
   * its same-domain page links are appended to the queue and its file links
   * are downloaded.
   */
  method VisitPage(cfg: Settings, env: Environment, st: State, e: Entry, page: Page)
    returns (next: State, log: seq<Attempt>, order: seq<Url>)
    requires Valid(cfg, env, st) && st.stats.pagesSaved < st.stats.pagesCrawled
    requires |st.crawled| > 0 && st.crawled[|st.crawled| - 1] == e
    requires forall j :: 0 <= j < |st.queue| ==> e.depth <= st.queue[j].depth <= e.depth + 1
    ensures Valid(cfg, env, next)
    ensures next.queue == st.queue + ScanAnchors(page.anchors, ScopeOf(cfg, st.visited, e)).pages
    ensures next.visited == st.visited && next.crawled == st.crawled && next.blocked == st.blocked
    ensures next.stats.pagesCrawled == st.stats.pagesCrawled
    ensures next.stats.errors == st.stats.errors
    ensures next.stats.robotsBlocked == st.stats.robotsBlocked
    ensures !cfg.savePages ==> next.pages == st.pages && next.stats.pagesSaved == st.stats.pagesSaved
    ensures cfg.savePages ==>
      var o := SavePage(st.pages, e.url.path, env.writePage);
      next.pages == o.pages && next.stats.pagesSaved == st.stats.pagesSaved + (if o.saved then 1 else 0)
    ensures |log| == |PageFiles(cfg, st.visited, e, page)|
    ensures forall i :: 0 <= i < |log| ==> log[i].url in PageFiles(cfg, st.visited, e, page)
    ensures forall u :: u in PageFiles(cfg, st.visited, e, page) ==> exists i :: 0 <= i < |log| && log[i].url == u
    ensures next.stats.filesDownloaded == st.stats.filesDownloaded + CountReason(log, Success)
    ensures next.stats.duplicatesSkipped == st.stats.duplicatesSkipped + CountReason(log, Duplicate)
    ensures |order| == |PageFiles(cfg, st.visited, e, page)|
    ensures forall i :: 0 <= i < |order| ==> order[i] in PageFiles(cfg, st.visited, e, page)
    ensures log == DownloadAll(order, st.files, st.detector, env).log
    ensures next.files == DownloadAll(order, st.files, st.detector, env).files
    ensures next.detector == DownloadAll(order, st.files, st.detector, env).detector
  {
    var stats := st.stats;
    var pages := st.pages;
    var name := PageFilename(e.url.path);
    if cfg.savePages {
      var o := SavePage(st.pages, e.url.path, env.writePage);
      pages := o.pages;
      if o.saved {
        stats := stats.(pagesSaved := stats.pagesSaved + 1);
      }
    }
    var scope := ScopeOf(cfg, st.visited, e);
    var scan := ScanAnchors(page.anchors, scope);
    ScanAnchorsPagesBelow(page.anchors, scope);
    var b;
    b, order := DownloadBatch(PageFiles(cfg, st.visited, e, page), st.files, st.detector, env);
    log := b.log;
    stats := stats.(
      filesDownloaded := stats.filesDownloaded + CountReason(log, Success),
      duplicatesSkipped := stats.duplicatesSkipped + CountReason(log, Duplicate));
    next := st.(queue := st.queue + scan.pages, stats := stats, files := b.files, pages := pages, detector := b.detector);
    EnqueueBreadthFirst(st, e, scan.pages, next);
    EnqueueAdmissions(cfg, st, scan.pages, next);
    VisitStorage(cfg, env, st, next, name, CountReason(log, Success), CountReason(log, Duplicate));
    VisitValid(cfg, env, st, next);
  }

  /**
   * The work on an admitted entry: it is recorded as crawled and its page is
   * requested; a failed request counts as an error, a fetched page is visited.
   */
  method CrawlEntry(cfg: Settings, env: Environment, st: State) returns (next: State)
    requires Valid(cfg, env, st)
    requires |st.queue| > 0 && st.stats.pagesCrawled < cfg.maxPages
    requires Admission(cfg, st.visited, st.queue[0]) == Admitted
    ensures Valid(cfg, env, next)
    ensures next.crawled == st.crawled + [st.queue[0]]
    ensures next.visited == st.visited + {st.queue[0].url}
    ensures next.stats.pagesCrawled == st.stats.pagesCrawled + 1
    ensures env.fetchPage(st.queue[0].url).None? ==> next == Fail(Admit(st))
    ensures env.fetchPage(st.queue[0].url).Some? ==>
      && next.stats.errors == st.stats.errors
      && next.stats.robotsBlocked == st.stats.robotsBlocked
      && Grows(st.stats, next.stats)
    ensures env.fetchPage(st.queue[0].url).Some? ==>
      next.queue == st.queue[1..] +
        ScanAnchors(env.fetchPage(st.queue[0].url).value.anchors,
                    ScopeOf(cfg, st.visited + {st.queue[0].url}, st.queue[0])).pages
  {
    var e := st.queue[0];
    AdmitValid(cfg, env, st);
    AdmitFront(cfg, env, st);
    match env.fetchPage(e.url)
    case None =>
      next := Fail(Admit(st));
    case Some(page) =>
      var log, order;
      next, log, order := VisitPage(cfg, env, Admit(st), e, page);
  }

  /**
   * One iteration of the loop: the entry at the front of the queue is
   * dropped, refused or crawled.
   */
  method Step(cfg: Settings, env: Environment, st: State) returns (next: State)
    requires Valid(cfg, env, st)
    requires |st.queue| > 0 && st.stats.pagesCrawled < cfg.maxPages
    ensures Valid(cfg, env, next)
    ensures Admission(cfg, st.visited, st.queue[0]) in {AlreadyVisited, TooDeep} ==>
      next == st.(queue := st.queue[1..])
    ensures Admission(cfg, st.visited, st.queue[0]) == RobotsBlocked ==>
      next == st.(queue := st.queue[1..], blocked := st.blocked + [st.queue[0]],
                  stats := st.stats.(robotsBlocked := st.stats.robotsBlocked + 1))
    ensures Admission(cfg, st.visited, st.queue[0]) == Admitted ==>
      next.crawled == st.crawled + [st.queue[0]] && next.stats.pagesCrawled == st.stats.pagesCrawled + 1
    ensures Admission(cfg, st.visited, st.queue[0]) != Admitted ==>
      next.stats.pagesCrawled == st.stats.pagesCrawled && |next.queue| < |st.queue|
    ensures Grows(st.stats, next.stats)
    ensures next.stats.errors == st.stats.errors +
      (if Admission(cfg, st.visited, st.queue[0]) == Admitted && env.fetchPage(st.queue[0].url).None? then 1 else 0)
    ensures next.stats.robotsBlocked == st.stats.robotsBlocked +
      (if Admission(cfg, st.visited, st.queue[0]) == RobotsBlocked then 1 else 0)
  {
    var e := st.queue[0];
    match Admission(cfg, st.visited, e)
    case AlreadyVisited =>
      PopValid(cfg, env, st);
      next := st.(queue := st.queue[1..]);
    case TooDeep =>
      PopValid(cfg, env, st);
      next := st.(queue := st.queue[1..]);
    case RobotsBlocked =>
      BlockValid(cfg, env, st);
      next := st.(queue := st.queue[1..], blocked := st.blocked + [e],
                  stats := st.stats.(robotsBlocked := st.stats.robotsBlocked + 1));
    case Admitted =>
      next := CrawlEntry(cfg, env, st);
  }

  /**
   * `crawl`: the loop runs while the queue is not empty and fewer than
   * `max_pages` pages were crawled.
   */
  method Crawl(job: Job, env: Environment) returns (res: State)
    ensures Valid(Resolve(job, env), env, res)
    ensures |res.queue| == 0 || res.stats.pagesCrawled >= Resolve(job, env).maxPages
    ensures res.stats.pagesCrawled == 0 || res.stats.pagesCrawled <= Resolve(job, env).maxPages
    ensures res.stats.pagesCrawled == |res.crawled| && res.visited == UrlsOf(res.crawled)
    ensures forall i, j :: 0 <= i < j < |res.crawled| ==> res.crawled[i].url != res.crawled[j].url
    ensures forall i :: 0 <= i < |res.crawled| ==> WithinDepth(res.crawled[i].depth, job.maxDepth)
    ensures |res.crawled| > 0 ==> res.crawled[0] == Entry(job.startUrl, 0)
    ensures (Resolve(job, env).maxPages >= 1 && Admission(Resolve(job, env), {}, Entry(job.startUrl, 0)) == Admitted)
      ==> |res.crawled| >= 1
  {
    var cfg := Resolve(job, env);
    var seedAdmitted := cfg.maxPages >= 1 && Admission(cfg, {}, Entry(job.startUrl, 0)) == Admitted;
    res := Initial(cfg, env);
    InitialValid(cfg, env);
    while |res.queue| > 0 && res.stats.pagesCrawled < cfg.maxPages
      invariant Valid(cfg, env, res)
      invariant seedAdmitted ==> res == Initial(cfg, env) || |res.crawled| >= 1
      decreases cfg.maxPages - res.stats.pagesCrawled, |res.queue|
    {
      var prev := res;
      res := Step(cfg, env, res);
      if seedAdmitted && prev == Initial(cfg, env) {
        assert prev.queue[0] == Entry(job.startUrl, 0) && prev.visited == {};
        assert |res.crawled| == 1;
      }
    }
  }

  /** A URL refused by robots.txt is never crawled: the checker's answer does not change. */
  lemma BlockedNeverVisited(cfg: Settings, env: Environment, st: State)
    requires Valid(cfg, env, st)
    ensures forall i :: 0 <= i < |st.blocked| ==> st.blocked[i].url !in st.visited
  {
  }

  /** Without robots.txt, or when it could not be loaded, no URL is ever refused. */
  lemma NothingBlockedWhenUnloaded(job: Job, env: Environment, st: State)
    requires Valid(Resolve(job, env), env, st)
    requires !job.respectRobots || env.loadRobots(RobotsUrl(job.startUrl)).None?
    ensures st.stats.robotsBlocked == 0
  {
    var cfg := Resolve(job, env);
    if |st.blocked| > 0 {
      var u := st.blocked[0].url;
      if job.respectRobots {
        FailOpen(job.startUrl, env.loadRobots, u);
      }
      assert RobotsAllow(cfg, u);
      assert false;
    }
  }
}

=== FILE: dedup.dfy ===
/**
 * The duplicate detector: a growing set of content fingerprints with a
 * test-and-insert operation. The source fingerprints with an md5 hex digest;
 * the model uses the content itself, i.e. an injective fingerprint, so hash
 * collisions are not part of the model.
 */
module Dedup {

  /** The bytes of a downloaded file. */
  type Content = seq<bv8>

  /** The fingerprints of all contents registered during one crawl. */
  datatype Detector = Detector(seen: set<Content>)

  /** A new detector, as created at the start of a crawl. */
  const Fresh: Detector := Detector({})

  /** `get_count`: the number of distinct contents registered. */
  function Count(d: Detector): nat {
    |d.seen|
  }

  /**
   * `is_duplicate`: reports whether the content was seen before; when it was
   * not, it is registered.
   */
  function IsDuplicate(d: Detector, c: Content): (r: (bool, Detector))
    ensures r.0 <==> c in d.seen
    ensures r.0 ==> r.1 == d
    ensures !r.0 ==> r.1.seen == d.seen + {c} && Count(r.1) == Count(d) + 1
  {
    if c in d.seen then (true, d) else (false, Detector(d.seen + {c}))
  }

  /** The set of contents occurring in a sequence. */
  function Distinct(cs: seq<Content>): set<Content> {
    set i | 0 <= i < |cs| :: cs[i]
  }

  /** Registers the contents one after another; the final detector and the answers, in order. */
  function Feed(d: Detector, cs: seq<Content>): (r: (Detector, seq<bool>))
    decreases |cs|
  {
    if |cs| == 0 then (d, [])
    else
      var first := IsDuplicate(d, cs[0]);
      var rest := Feed(first.1, cs[1..]);
      (rest.0, [first.0] + rest.1)
  }

  /** The number of `false` answers, i.e. of contents accepted as new. */
  function CountFresh(answers: seq<bool>): nat
    decreases |answers|
  {
    if |answers| == 0 then 0
    else (if answers[0] then 0 else 1) + CountFresh(answers[1..])
  }

  lemma DistinctCons(cs: seq<Content>)
    requires |cs| > 0
    ensures Distinct(cs) == {cs[0]} + Distinct(cs[1..])
  {
    forall c | c in Distinct(cs)
      ensures c in {cs[0]} + Distinct(cs[1..])
    {
      var i :| 0 <= i < |cs| && cs[i] == c;
      if i > 0 {
        assert cs[1..][i - 1] == c;
      }
    }
    forall c | c in Distinct(cs[1..])
      ensures c in Distinct(cs)
    {
      var i :| 0 <= i < |cs[1..]| && cs[1..][i] == c;
      assert cs[i + 1] == c;
    }
  }

  /** Feeding answers once per content, and the detector ends up holding every content fed. */
  lemma {:induction false} FeedRegisters(d: Detector, cs: seq<Content>)
    ensures |Feed(d, cs).1| == |cs|
    ensures Feed(d, cs).0.seen == d.seen + Distinct(cs)
    decreases |cs|
  {
    if |cs| > 0 {
      FeedRegisters(IsDuplicate(d, cs[0]).1, cs[1..]);
      DistinctCons(cs);
    } else {
      assert Distinct(cs) == {};
    }
  }

  /**
   * The i-th content is reported as a duplicate exactly when it was registered
   * before the run or occurs earlier in the sequence.
   */
  lemma {:induction false} FeedAnswers(d: Detector, cs: seq<Content>)
    ensures |Feed(d, cs).1| == |cs|
    ensures forall i :: 0 <= i < |cs| ==>
      (Feed(d, cs).1[i] <==> cs[i] in d.seen + Distinct(cs[..i]))
    decreases |cs|
  {
    FeedRegisters(d, cs);
    if |cs| > 0 {
      var first := IsDuplicate(d, cs[0]);
      var d1 := first.1;
      assert d1.seen == d.seen + {cs[0]};
      FeedAnswers(d1, cs[1..]);
      var answers := Feed(d, cs).1;
      var later := Feed(d1, cs[1..]).1;
      assert answers == [first.0] + later;
      forall i | 0 < i < |cs|
        ensures answers[i] <==> cs[i] in d.seen + Distinct(cs[..i])
      {
        PrefixShift(cs, i);
        assert answers[i] == later[i - 1];
      }
      assert Distinct(cs[..0]) == {};
    }
  }

  /** Past its first element, a prefix holds that element and a prefix of the tail. */
  lemma PrefixShift(cs: seq<Content>, i: int)
    requires 0 < i < |cs|
    ensures cs[1..][i - 1] == cs[i]
    ensures Distinct(cs[..i]) == {cs[0]} + Distinct(cs[1..][..i - 1])
  {
    assert cs[1..][..i - 1] == cs[..i][1..];
    DistinctCons(cs[..i]);
  }

  /** Each content accepted as new grows the detector by exactly one. */
  lemma {:induction false} FeedCountsFresh(d: Detector, cs: seq<Content>)
    ensures Count(Feed(d, cs).0) == Count(d) + CountFresh(Feed(d, cs).1)
    decreases |cs|
  {
    if |cs| > 0 {
      var first := IsDuplicate(d, cs[0]);
      FeedCountsFresh(first.1, cs[1..]);
      assert Feed(d, cs).1 == [first.0] + Feed(first.1, cs[1..]).1;
      assert ([first.0] + Feed(first.1, cs[1..]).1)[1..] == Feed(first.1, cs[1..]).1;
    }
  }

  /**
   * Over a whole crawl, the count equals the number of distinct contents
   * seen, and equals the number of contents accepted as new.
   */
  lemma CountIsDistinctContents(cs: seq<Content>)
    ensures Count(Feed(Fresh, cs).0) == |Distinct(cs)|
    ensures CountFresh(Feed(Fresh, cs).1) == |Distinct(cs)|
  {
    FeedRegisters(Fresh, cs);
    FeedCountsFresh(Fresh, cs);
  }

  /** Two identical contents: the first is accepted, the second is a duplicate. */
  lemma IdenticalPair(c: Content)
    ensures Feed(Fresh, [c, c]).1 == [false, true]
    ensures Count(Feed(Fresh, [c, c]).0) == 1
  {
    FeedAnswers(Fresh, [c, c]);
    FeedRegisters(Fresh, [c, c]);
    assert [c, c][..1] == [c];
    assert Distinct([c]) == {c};
    assert Distinct([c, c]) == {c};
  }
}

=== FILE: download.dfy ===
/**
 * `download_file`: the decision flow that turns a file URL into one of the
 * outcomes `no_filename`, `exists`, `duplicate`, `success` or `error`.
 * The download directory is modelled as the set of names it holds, the HTTP
 * fetch and the file write as oracles.
 */
module Download {
  import opened Wrappers
  import opened Urls
  import opened Dedup

  /** The reason string returned next to the success flag. */
  datatype Reason = NoFilename | Exists | Duplicate | Success | Error

  /**
   * What writing a file does: it is written, or opening it fails (nothing is
   * created), or opening succeeds and the write fails (the file exists, with
   * partial content).
   */
  datatype WriteOutcome = Written | OpenFailed | WriteFailed

  /** The result of one download together with the state it leaves behind. */
  datatype DownloadStep = DownloadStep(
    reason: Reason,
    files: set<string>,
    detector: Option<Detector>,
    fetched: bool)

  /** The detector's answer for `content`; no detector means no duplicate check. */
  function CheckDuplicate(det: Option<Detector>, content: Content): (bool, Option<Detector>) {
    if det.None? then (false, None)
    else
      var answer := IsDuplicate(det.value, content);
      (answer.0, Some(answer.1))
  }

  /**
   * One download. The basename and the existence check come before any
   * request; the duplicate check needs the content, so it follows the fetch
   * and registers the content before the file is written.
   */
  function DownloadFile(
    url: Url,
    files: set<string>,
    det: Option<Detector>,
    fetch: Url -> Option<Content>,
    write: string -> WriteOutcome): (r: DownloadStep)
    ensures r.reason == NoFilename <==> Basename(url.path) == ""
    ensures r.reason == Exists <==> Basename(url.path) != "" && Basename(url.path) in files
    ensures r.reason in {NoFilename, Exists} <==> !r.fetched
    ensures !r.fetched ==> r.files == files && r.detector == det
    ensures r.reason == Duplicate <==>
      && Basename(url.path) != "" && Basename(url.path) !in files
      && fetch(url).Some? && det.Some? && fetch(url).value in det.value.seen
    ensures r.reason == Duplicate ==> r.files == files && r.detector == det
    ensures r.reason == Error <==>
      && Basename(url.path) != "" && Basename(url.path) !in files
      && (|| fetch(url).None?
          || ((det.None? || fetch(url).value !in det.value.seen) && write(Basename(url.path)) != Written))
    ensures r.reason == Success <==>
      && Basename(url.path) != "" && Basename(url.path) !in files
      && fetch(url).Some?
      && (det.None? || fetch(url).value !in det.value.seen)
      && write(Basename(url.path)) == Written
    ensures r.reason == Success ==> r.files == files + {Basename(url.path)}
    ensures r.reason != Success ==> r.files == files || r.files == files + {Basename(url.path)}
    ensures fetch(url).None? ==> r.files == files
    ensures Basename(url.path) != "" && Basename(url.path) !in files && fetch(url).Some? && (det.None? || fetch(url).value !in det.value.seen) ==>
      && (write(Basename(url.path)) == OpenFailed ==> r.files == files)
      && (write(Basename(url.path)) == WriteFailed ==> r.files == files + {Basename(url.path)})
    ensures files <= r.files
    ensures det.None? <==> r.detector.None?
    ensures fetch(url).None? ==> r.detector == det
    ensures det.Some? && r.fetched && fetch(url).Some? ==>
      r.detector.value.seen == det.value.seen + {fetch(url).value}
  {
    var name := Basename(url.path);
    if name == "" then DownloadStep(NoFilename, files, det, false)
    else if name in files then DownloadStep(Exists, files, det, false)
    else if fetch(url).None? then DownloadStep(Error, files, det, true)
    else
      var content := fetch(url).value;
      var det' := CheckDuplicate(det, content).1;
      if CheckDuplicate(det, content).0 then DownloadStep(Duplicate, files, det', true)
      else if write(name) == Written then DownloadStep(Success, files + {name}, det', true)
      else if write(name) == OpenFailed then DownloadStep(Error, files, det', true)
      else DownloadStep(Error, files + {name}, det', true)
  }

  /**
   * A failed request leaves nothing on disk, so a later URL with the same
   * basename is requested again instead of being reported as existing.
   */
  lemma FailedFetchRetried(a: Url, b: Url, files: set<string>, det: Option<Detector>,
                           fetch: Url -> Option<Content>, write: string -> WriteOutcome)
    requires Basename(a.path) != "" && Basename(a.path) !in files && fetch(a).None?
    requires Basename(b.path) == Basename(a.path)
    ensures DownloadFile(a, files, det, fetch, write).reason == Error
    ensures DownloadFile(b, DownloadFile(a, files, det, fetch, write).files, det, fetch, write).fetched
  {
  }

  /**
   * Two URLs with new, different names and identical content: the first is
   * downloaded, the second is skipped as a duplicate, and only one name is added.
   */
  lemma IdenticalContentOnce(
    a: Url, b: Url, files: set<string>, d: Detector,
    fetch: Url -> Option<Content>, write: string -> WriteOutcome)
    requires Basename(a.path) != "" && Basename(b.path) != "" && Basename(a.path) != Basename(b.path)
    requires Basename(a.path) !in files && Basename(b.path) !in files
    requires fetch(a).Some? && fetch(a).value !in d.seen && fetch(b) == fetch(a)
    requires write(Basename(a.path)) == Written
    ensures DownloadFile(a, files, Some(d), fetch, write).reason == Success
    ensures var first := DownloadFile(a, files, Some(d), fetch, write);
      && DownloadFile(b, first.files, first.detector, fetch, write).reason == Duplicate
      && DownloadFile(b, first.files, first.detector, fetch, write).files == files + {Basename(a.path)}
  {
  }

  /**
   * A content whose write failed is still registered, so an identical
   * content from another URL is later skipped as a duplicate although no
   * copy of it was saved.
   */
  lemma FailedWriteStillRegisters(
    a: Url, b: Url, files: set<string>, d: Detector,
    fetch: Url -> Option<Content>, write: string -> WriteOutcome)
    requires Basename(a.path) != "" && Basename(a.path) !in files
    requires fetch(a).Some? && fetch(a).value !in d.seen
    requires write(Basename(a.path)) == OpenFailed
    requires Basename(b.path) != "" && Basename(b.path) !in files
    requires fetch(b) == fetch(a)
    ensures DownloadFile(a, files, Some(d), fetch, write).reason == Error
    ensures var first := DownloadFile(a, files, Some(d), fetch, write);
      DownloadFile(b, first.files, first.detector, fetch, write).reason == Duplicate
  {
  }
}

=== FILE: gather.dfy ===
/**
 * Generic facts about the loops that walk a page's links in document order
 * and keep some of them: the kept elements as a set, and the produced
 * values as a sequence.
 */
module Gather {
  import opened Wrappers

  /** The values `f` produces on the elements of `s`, as a set. */
  function Chosen<T, U>(s: seq<T>, f: T -> Option<U>): set<U> {
    set i | 0 <= i < |s| && f(s[i]).Some? :: f(s[i]).value
  }

  /** The values `f` produces on the elements of `s`, in order. */
  function Picked<T, U>(s: seq<T>, f: T -> Option<U>): (r: seq<U>)
    ensures |r| <= |s|
    decreases |s|
  {
    if |s| == 0 then []
    else
      var n := |s| - 1;
      match f(s[n])
      case Some(v) => Picked(s[..n], f) + [v]
      case None => Picked(s[..n], f)
  }

  /** Appending one element adds its value, if any, to the chosen set. */
  lemma ChosenSnoc<T, U>(s: seq<T>, f: T -> Option<U>)
    requires |s| > 0
    ensures var n := |s| - 1;
      Chosen(s, f) == Chosen(s[..n], f) + (if f(s[n]).Some? then {f(s[n]).value} else {})
  {
    var n := |s| - 1;
    var front := s[..n];
    forall v | v in Chosen(front, f) ensures v in Chosen(s, f) {
      var i :| 0 <= i < n && f(front[i]).Some? && f(front[i]).value == v;
      assert s[i] == front[i];
    }
    forall v | v in Chosen(s, f)
      ensures v in Chosen(front, f) || f(s[n]) == Some(v)
    {
      var i :| 0 <= i < |s| && f(s[i]).Some? && f(s[i]).value == v;
      if i < n {
        assert front[i] == s[i];
      }
    }
  }

  /** Every picked value is produced by some element. */
  lemma {:induction false} PickedFrom<T, U>(s: seq<T>, f: T -> Option<U>)
    ensures forall k :: 0 <= k < |Picked(s, f)| ==>
      exists i :: 0 <= i < |s| && f(s[i]) == Some(Picked(s, f)[k])
    decreases |s|
  {
    if |s| > 0 {
      var n := |s| - 1;
      var front := s[..n];
      var prev := Picked(front, f);
      var r := Picked(s, f);
      PickedFrom(front, f);
      assert f(s[n]).Some? ==> r == prev + [f(s[n]).value];
      assert f(s[n]).None? ==> r == prev;
      forall k | 0 <= k < |r|
        ensures exists i :: 0 <= i < |s| && f(s[i]) == Some(r[k])
      {
        if k < |prev| {
          assert r[k] == prev[k];
          var i :| 0 <= i < n && f(front[i]) == Some(prev[k]);
          assert s[i] == front[i];
        } else {
          assert f(s[n]) == Some(r[k]);
        }
      }
    } else {
      assert Picked(s, f) == [];
    }
  }

  /** Every value some element produces is picked. */
  lemma {:induction false} PickedComplete<T, U>(s: seq<T>, f: T -> Option<U>)
    ensures forall i :: 0 <= i < |s| && f(s[i]).Some? ==> f(s[i]).value in Picked(s, f)
    decreases |s|
  {
    if |s| > 0 {
      var n := |s| - 1;
      var front := s[..n];
      PickedComplete(front, f);
      assert f(s[n]).Some? ==> Picked(s, f) == Picked(front, f) + [f(s[n]).value];
      assert f(s[n]).None? ==> Picked(s, f) == Picked(front, f);
      forall i | 0 <= i < |s| && f(s[i]).Some?
        ensures f(s[i]).value in Picked(s, f)
      {
        if i < n {
          assert s[i] == front[i];
        }
      }
    }
  }

  /** The positions of the elements that produce a value. */
  function Producing<T, U>(s: seq<T>, f: T -> Option<U>): set<int> {
    set i | 0 <= i < |s| && f(s[i]).Some?
  }

  /** One value is picked per element that produces one: none is dropped or repeated. */
  lemma {:induction false} PickedCount<T, U>(s: seq<T>, f: T -> Option<U>)
    ensures |Picked(s, f)| == |Producing(s, f)|
    decreases |s|
  {
    var all := Producing(s, f);
    if |s| == 0 {
      assert all == {};
    } else {
      var n := |s| - 1;
      var front := s[..n];
      PickedCount(front, f);
      var before := Producing(front, f);
      assert forall i :: 0 <= i < n ==> front[i] == s[i];
      if f(s[n]).Some? {
        assert all == before + {n};
        assert n !in before;
      } else {
        assert all == before;
      }
    }
  }
}

=== FILE: links.dfy ===
/**
 * Link classification for one fetched page: every anchor link is either
 * skipped, collected as a file to download, enqueued as a page to crawl, or
 * ignored; image links are only ever collected as files.
 */
module Links {
  import opened Wrappers
  import opened Urls
  import opened Gather

  /** A frontier entry: a URL and the depth at which it was found. */
  datatype Entry = Entry(url: Url, depth: int)

  /** The extension filter: a non-empty extension, and no restriction or a listed one. */
  predicate IsWanted(ext: string, allowed: set<string>) {
    ext != "" && (allowed == {} || ext in allowed)
  }

  /** No depth limit, or a depth within it. */
  predicate WithinDepth(depth: int, maxDepth: Option<int>) {
    maxDepth.None? || depth <= maxDepth.value
  }

  /** The fixed inputs of the link scan of one page. */
  datatype Scope = Scope(
    visited: set<Url>,
    allowed: set<string>,
    baseNetloc: string,
    depth: int,
    maxDepth: Option<int>)

  /** What the crawler does with one anchor link. */
  datatype AnchorAction = Skip | Collect(file: Url) | Enqueue(entry: Entry) | Ignore

  /**
   * One anchor link: with its fragment removed, an empty or visited link is
   * skipped; a wanted extension makes it a file; otherwise a same-domain link
   * within the depth limit is enqueued one level deeper.
   */
  function ClassifyAnchor(link: Url, sc: Scope): (a: AnchorAction)
    ensures var l := StripFragment(link);
      a.Skip? <==> IsEmpty(l) || l in sc.visited
    ensures var l := StripFragment(link);
      a.Collect? <==>
        && !IsEmpty(l) && l !in sc.visited
        && HasExtensionDot(Basename(link.path))
        && (sc.allowed == {} || Extension(link) in sc.allowed)
    ensures a.Collect? ==> a.file == StripFragment(link)
    ensures var l := StripFragment(link);
      a.Enqueue? <==>
        && !IsEmpty(l) && l !in sc.visited
        && !IsWanted(Extension(link), sc.allowed)
        && link.netloc == sc.baseNetloc
        && WithinDepth(sc.depth + 1, sc.maxDepth)
    ensures a.Enqueue? ==> a.entry == Entry(StripFragment(link), sc.depth + 1)
  {
    var l := StripFragment(link);
    if IsEmpty(l) || l in sc.visited then Skip
    else if IsWanted(Extension(l), sc.allowed) then Collect(l)
    else if IsSameDomain(l, sc.baseNetloc) && l !in sc.visited then
      if WithinDepth(sc.depth + 1, sc.maxDepth) then Enqueue(Entry(l, sc.depth + 1)) else Ignore
    else Ignore
  }

  /** What a page entry produced by a scan looks like. */
  predicate IsPageEntry(e: Entry, sc: Scope) {
    && e.depth == sc.depth + 1
    && e.url.netloc == sc.baseNetloc
    && e.url.fragment.None?
    && e.url !in sc.visited
    && !IsWanted(Extension(e.url), sc.allowed)
    && WithinDepth(e.depth, sc.maxDepth)
  }

  /** What a file collected from an anchor looks like. */
  predicate IsAnchorFile(f: Url, sc: Scope) {
    && f.fragment.None?
    && f !in sc.visited
    && IsWanted(Extension(f), sc.allowed)
  }

  /** The files collected and the entries enqueued by the anchors of one page. */
  datatype LinkScan = LinkScan(files: set<Url>, pages: seq<Entry>)

  /** The anchor loop of one page, in document order: at most one entry per anchor. */
  function ScanAnchors(anchors: seq<Url>, sc: Scope): (r: LinkScan)
    ensures |r.pages| <= |anchors|
    decreases |anchors|
  {
    if |anchors| == 0 then LinkScan({}, [])
    else
      var n := |anchors| - 1;
      var prev := ScanAnchors(anchors[..n], sc);
      match ClassifyAnchor(anchors[n], sc)
      case Collect(f) => LinkScan(prev.files + {f}, prev.pages)
      case Enqueue(e) => LinkScan(prev.files, prev.pages + [e])
      case Skip => prev
      case Ignore => prev
  }

  /** The file an anchor action collects, if any. */
  function FileOf(a: AnchorAction): Option<Url> {
    if a.Collect? then Some(a.file) else None
  }

  /** The entry an anchor action enqueues, if any. */
  function EntryOf(a: AnchorAction): Option<Entry> {
    if a.Enqueue? then Some(a.entry) else None
  }

  function AnchorFile(sc: Scope): Url -> Option<Url> {
    link => FileOf(ClassifyAnchor(link, sc))
  }

  function AnchorEntry(sc: Scope): Url -> Option<Entry> {
    link => EntryOf(ClassifyAnchor(link, sc))
  }

  /** The anchor loop keeps each anchor's file in a set and appends each anchor's entry in order. */
  lemma {:induction false} ScanAnchorsGathers(anchors: seq<Url>, sc: Scope)
    ensures ScanAnchors(anchors, sc) == LinkScan(Chosen(anchors, AnchorFile(sc)), Picked(anchors, AnchorEntry(sc)))
    decreases |anchors|
  {
    if |anchors| > 0 {
      ScanAnchorsGathers(anchors[..|anchors| - 1], sc);
      ChosenSnoc(anchors, AnchorFile(sc));
    } else {
      assert Chosen(anchors, AnchorFile(sc)) == {};
    }
  }

  /** The files of a scan are exactly the links some anchor is collected as. */
  lemma ScanAnchorsFiles(anchors: seq<Url>, sc: Scope)
    ensures forall f :: f in ScanAnchors(anchors, sc).files <==>
      exists i :: 0 <= i < |anchors| && ClassifyAnchor(anchors[i], sc) == Collect(f)
  {
    ScanAnchorsGathers(anchors, sc);
    forall f | f in ScanAnchors(anchors, sc).files
      ensures exists i :: 0 <= i < |anchors| && ClassifyAnchor(anchors[i], sc) == Collect(f)
    {
      FileChosenFrom(anchors, sc, f);
    }
    forall i | 0 <= i < |anchors| && ClassifyAnchor(anchors[i], sc).Collect?
      ensures ClassifyAnchor(anchors[i], sc).file in ScanAnchors(anchors, sc).files
    {
      assert AnchorFile(sc)(anchors[i]) == Some(ClassifyAnchor(anchors[i], sc).file);
    }
  }

  lemma FileChosenFrom(anchors: seq<Url>, sc: Scope, f: Url)
    requires f in Chosen(anchors, AnchorFile(sc))
    ensures exists i :: 0 <= i < |anchors| && ClassifyAnchor(anchors[i], sc) == Collect(f)
  {
    var i :| 0 <= i < |anchors| && AnchorFile(sc)(anchors[i]).Some? && AnchorFile(sc)(anchors[i]).value == f;
    assert ClassifyAnchor(anchors[i], sc) == Collect(f);
  }

  /**
   * The entries of a scan are exactly those some anchor is enqueued as.
   */
  lemma ScanAnchorsPages(anchors: seq<Url>, sc: Scope)
    ensures forall i :: 0 <= i < |anchors| && ClassifyAnchor(anchors[i], sc).Enqueue? ==>
      ClassifyAnchor(anchors[i], sc).entry in ScanAnchors(anchors, sc).pages
    ensures forall k :: 0 <= k < |ScanAnchors(anchors, sc).pages| ==>
      exists i :: 0 <= i < |anchors| && ClassifyAnchor(anchors[i], sc) == Enqueue(ScanAnchors(anchors, sc).pages[k])
  {
    var r := ScanAnchors(anchors, sc);
    ScanAnchorsGathers(anchors, sc);
    PickedComplete(anchors, AnchorEntry(sc));
    forall i | 0 <= i < |anchors| && ClassifyAnchor(anchors[i], sc).Enqueue?
      ensures ClassifyAnchor(anchors[i], sc).entry in r.pages
    {
      assert AnchorEntry(sc)(anchors[i]) == Some(ClassifyAnchor(anchors[i], sc).entry);
    }
    PickedFrom(anchors, AnchorEntry(sc));
    forall k | 0 <= k < |r.pages|
      ensures exists i :: 0 <= i < |anchors| && ClassifyAnchor(anchors[i], sc) == Enqueue(r.pages[k])
    {
      var i :| 0 <= i < |anchors| && AnchorEntry(sc)(anchors[i]) == Some(r.pages[k]);
      assert ClassifyAnchor(anchors[i], sc) == Enqueue(r.pages[k]);
    }
  }

  /** How many anchors of the page are classified as pages to enqueue. */
  function EnqueuedCount(anchors: seq<Url>, sc: Scope): nat {
    |set i | 0 <= i < |anchors| && ClassifyAnchor(anchors[i], sc).Enqueue?|
  }

  /** The scan enqueues exactly one entry per anchor classified as a page, so no anchor twice. */
  lemma ScanAnchorsPageCount(anchors: seq<Url>, sc: Scope)
    ensures |ScanAnchors(anchors, sc).pages| == EnqueuedCount(anchors, sc)
  {
    ScanAnchorsGathers(anchors, sc);
    PickedCount(anchors, AnchorEntry(sc));
    var picked := Producing(anchors, AnchorEntry(sc));
    var enqueued := set i | 0 <= i < |anchors| && ClassifyAnchor(anchors[i], sc).Enqueue?;
    forall i | 0 <= i < |anchors|
      ensures i in picked <==> i in enqueued
    {
      EntryOfSome(ClassifyAnchor(anchors[i], sc));
    }
    assert picked == enqueued;
    assert ScanAnchors(anchors, sc).pages == Picked(anchors, AnchorEntry(sc));
    assert EnqueuedCount(anchors, sc) == |enqueued|;
  }

  lemma EntryOfSome(a: AnchorAction)
    ensures EntryOf(a).Some? <==> a.Enqueue?
  {
  }

  /**
   * Every collected file has a wanted extension, no fragment and was not
   * visited; every enqueued entry is a same-domain, unvisited, unwanted link
   * one level deeper within the depth limit; so no link is both.
   */
  lemma ScanAnchorsSound(anchors: seq<Url>, sc: Scope)
    ensures forall f :: f in ScanAnchors(anchors, sc).files ==> IsAnchorFile(f, sc)
    ensures forall k :: 0 <= k < |ScanAnchors(anchors, sc).pages| ==> IsPageEntry(ScanAnchors(anchors, sc).pages[k], sc)
    ensures forall k :: 0 <= k < |ScanAnchors(anchors, sc).pages| ==>
      ScanAnchors(anchors, sc).pages[k].url !in ScanAnchors(anchors, sc).files
  {
    var r := ScanAnchors(anchors, sc);
    ScanAnchorsFiles(anchors, sc);
    ScanAnchorsPages(anchors, sc);
    forall f | f in r.files
      ensures IsAnchorFile(f, sc)
    {
      var i :| 0 <= i < |anchors| && ClassifyAnchor(anchors[i], sc) == Collect(f);
      assert Extension(StripFragment(anchors[i])) == Extension(anchors[i]);
    }
    forall k | 0 <= k < |r.pages|
      ensures IsPageEntry(r.pages[k], sc)
    {
      var i :| 0 <= i < |anchors| && ClassifyAnchor(anchors[i], sc) == Enqueue(r.pages[k]);
      assert Extension(StripFragment(anchors[i])) == Extension(anchors[i]);
    }
  }

  /** Every enqueued entry is one level deeper, on the base domain and without fragment. */
  lemma ScanAnchorsPagesBelow(anchors: seq<Url>, sc: Scope)
    ensures forall k :: 0 <= k < |ScanAnchors(anchors, sc).pages| ==>
      && ScanAnchors(anchors, sc).pages[k].depth == sc.depth + 1
      && ScanAnchors(anchors, sc).pages[k].url.netloc == sc.baseNetloc
      && ScanAnchors(anchors, sc).pages[k].url.fragment.None?
  {
    ScanAnchorsSound(anchors, sc);
  }

  /** The image loop of one page: no fragment removal and no visited check. */
  function ScanImages(images: seq<Url>, allowed: set<string>): set<Url>
    decreases |images|
  {
    if |images| == 0 then {}
    else
      var n := |images| - 1;
      var prev := ScanImages(images[..n], allowed);
      if IsWanted(Extension(images[n]), allowed) then prev + {images[n]} else prev
  }

  function ImageFile(allowed: set<string>): Url -> Option<Url> {
    img => if IsWanted(Extension(img), allowed) then Some(img) else None
  }

  lemma {:induction false} ScanImagesGathers(images: seq<Url>, allowed: set<string>)
    ensures ScanImages(images, allowed) == Chosen(images, ImageFile(allowed))
    decreases |images|
  {
    if |images| > 0 {
      ScanImagesGathers(images[..|images| - 1], allowed);
      ChosenSnoc(images, ImageFile(allowed));
    } else {
      assert Chosen(images, ImageFile(allowed)) == {};
    }
  }

  /** Every file an image scan collects is an image link with a wanted extension. */
  lemma ScanImagesSound(images: seq<Url>, allowed: set<string>)
    ensures forall f :: f in ScanImages(images, allowed) ==>
      exists i :: 0 <= i < |images| && images[i] == f && IsWanted(Extension(f), allowed)
  {
    ScanImagesGathers(images, allowed);
    forall f | f in ScanImages(images, allowed)
      ensures exists i :: 0 <= i < |images| && images[i] == f && IsWanted(Extension(f), allowed)
    {
      var i :| 0 <= i < |images| && ImageFile(allowed)(images[i]).Some? && ImageFile(allowed)(images[i]).value == f;
    }
  }

  /** Every image link with a wanted extension is collected, visited or not. */
  lemma ScanImagesComplete(images: seq<Url>, allowed: set<string>)
    ensures forall i :: 0 <= i < |images| && IsWanted(Extension(images[i]), allowed) ==>
      images[i] in ScanImages(images, allowed)
  {
    ScanImagesGathers(images, allowed);
    forall i | 0 <= i < |images| && IsWanted(Extension(images[i]), allowed)
      ensures images[i] in ScanImages(images, allowed)
    {
      assert ImageFile(allowed)(images[i]) == Some(images[i]);
    }
  }

  /** An image link already visited as a page is still collected; an anchor link is not. */
  lemma VisitedImageStillCollected(img: Url, sc: Scope)
    requires img in sc.visited && img.fragment.None?
    requires IsWanted(Extension(img), sc.allowed)
    ensures img in ScanImages([img], sc.allowed)
    ensures ScanAnchors([img], sc).files == {}
  {
    ScanImagesComplete([img], sc.allowed);
    ScanAnchorsFiles([img], sc);
    assert ClassifyAnchor([img][0], sc) == Skip;
    assert [img][0] == img;
  }
}

=== FILE: pagesave.dfy ===
/**
 * Saving crawled pages: the file name derived from a page's path, and the
 * save step that never overwrites an existing file. The `html` directory is
 * modelled as the set of names it holds, the write as an oracle.
 */
module PageSave {
  import opened Text
  import Urls
  import opened Download

  /** The characters `re.sub(r'[<>:"/\\|?*]', '_', ...)` replaces. */
  predicate IsReserved(c: char) {
    c == '<' || c == '>' || c == ':' || c == '"' || c == '/' || c == '\\' || c == '|' || c == '?' || c == '*'
  }

  predicate HasNoReserved(s: string) {
    forall i :: 0 <= i < |s| ==> !IsReserved(s[i])
  }

  predicate HasHtmlSuffix(s: string) {
    EndsWith(s, ".html") || EndsWith(s, ".htm")
  }

  /** Every reserved character becomes an underscore; the others are kept in place. */
  function Sanitize(s: string): (r: string)
    ensures |r| == |s|
    ensures HasNoReserved(r)
    ensures forall i :: 0 <= i < |s| && !IsReserved(s[i]) ==> r[i] == s[i]
    ensures forall i :: 0 <= i < |s| && IsReserved(s[i]) ==> r[i] == '_'
  {
    seq(|s|, i requires 0 <= i < |s| => if IsReserved(s[i]) then '_' else s[i])
  }

  /** The path with its slashes stripped from both ends, or "index" when nothing remains. */
  function PageStem(path: string): string {
    var stripped := Strip(path, Urls.IsSlash);
    if stripped == "" then "index" else stripped
  }

  /** ".html" is appended unless the name already ends in ".html" or ".htm". */
  function WithHtmlSuffix(clean: string): (name: string)
    ensures HasHtmlSuffix(name)
    ensures HasNoReserved(clean) ==> HasNoReserved(name)
    ensures |name| == |clean| || |name| == |clean| + 5
    ensures name[..|clean|] == clean
    ensures HasHtmlSuffix(clean) ==> name == clean
    ensures !HasHtmlSuffix(clean) ==> name == clean + ".html"
  {
    if HasHtmlSuffix(clean) then clean
    else
      var name := clean + ".html";
      assert name[|name| - 5..] == ".html";
      assert forall i :: |clean| <= i < |name| ==> name[i] == ".html"[i - |clean|];
      name
  }

  lemma IndexName()
    ensures WithHtmlSuffix(Sanitize("index")) == "index.html"
  {
    assert Sanitize("index") == "index";
    assert "index"[5 - 4..] != ".htm";
    assert !HasHtmlSuffix("index");
  }

  /**
   * The saved page's file name: the stem with reserved characters replaced,
   * and ".html" appended unless it already ends in ".html" or ".htm".
   */
  function PageFilename(path: string): (name: string)
    ensures HasNoReserved(name)
    ensures HasHtmlSuffix(name)
    ensures |name| > 0
    ensures (forall i :: 0 <= i < |path| ==> path[i] == '/') ==> name == "index.html"
    ensures |name| == |PageStem(path)| || |name| == |PageStem(path)| + 5
    ensures name[..|PageStem(path)|] == Sanitize(PageStem(path))
    ensures HasHtmlSuffix(Sanitize(PageStem(path))) ==> name == Sanitize(PageStem(path))
    ensures !HasHtmlSuffix(Sanitize(PageStem(path))) ==> name == Sanitize(PageStem(path)) + ".html"
  {
    StripEmptyIff(path, Urls.IsSlash);
    IndexName();
    WithHtmlSuffix(Sanitize(PageStem(path)))
  }

  /** A derived name is a fixed point: deriving again from it changes nothing. */
  lemma PageFilenameIdempotent(path: string)
    ensures PageFilename(PageFilename(path)) == PageFilename(path)
  {
    var name := PageFilename(path);
    assert forall i :: 0 <= i < |name| ==> !Urls.IsSlash(name[i]);
    StripKeepsClean(name, Urls.IsSlash);
    assert PageStem(name) == name;
    assert Sanitize(name) == name;
  }

  /** The outcome of one save attempt and the `html` directory afterwards. */
  datatype SaveOutcome = SaveOutcome(saved: bool, pages: set<string>)

  /**
   * Saving a page body: skipped when a file of the derived name exists,
   * otherwise written; `saved` is true only when the write completed.
   */
  function SavePage(pages: set<string>, path: string, write: string -> WriteOutcome): (r: SaveOutcome)
    ensures r.saved <==> PageFilename(path) !in pages && write(PageFilename(path)) == Written
    ensures PageFilename(path) in pages ==> r.pages == pages
    ensures r.saved ==> r.pages == pages + {PageFilename(path)}
    ensures r.pages == pages || r.pages == pages + {PageFilename(path)}
    ensures PageFilename(path) !in pages && write(PageFilename(path)) == OpenFailed ==> r.pages == pages
    ensures PageFilename(path) !in pages && write(PageFilename(path)) == WriteFailed ==>
      r.pages == pages + {PageFilename(path)}
  {
    var name := PageFilename(path);
    if name in pages then SaveOutcome(false, pages)
    else match write(name)
      case Written => SaveOutcome(true, pages + {name})
      case OpenFailed => SaveOutcome(false, pages)
      case WriteFailed => SaveOutcome(false, pages + {name})
  }
}

=== FILE: robots.dfy ===
/**
 * The robots.txt checker. Fetching and evaluating robots.txt rules is done by
 * a library; here the outcome of loading is a parameter (`None` when loading
 * raised), and only the fail-open behaviour around it is modelled.
 */
module Robots {
  import opened Wrappers
  import opened Urls

  /** The agent string the crawler identifies itself with. */
  const UserAgent: string := "WebCrawlScrape/1.0"

  /** Loaded robots.txt rules: may this agent fetch this URL? */
  type Policy = (string, Url) -> bool

  datatype RobotsChecker = RobotsChecker(loaded: bool, policy: Policy)

  /** `<scheme>://<netloc>/robots.txt` of the seed's origin. */
  function RobotsUrl(seed: Url): Url {
    Url(seed.scheme, seed.netloc, "/robots.txt", None, None)
  }

  /**
   * Building the checker: the rules are loaded from the seed origin's
   * robots.txt; a load failure leaves the checker unloaded.
   */
  function LoadChecker(seed: Url, load: Url -> Option<Policy>): (r: RobotsChecker)
    ensures r.loaded <==> load(RobotsUrl(seed)).Some?
    ensures r.loaded ==> r.policy == load(RobotsUrl(seed)).value
  {
    match load(RobotsUrl(seed))
    case Some(p) => RobotsChecker(true, p)
    case None => RobotsChecker(false, (agent: string, u: Url) => false)
  }

  /** `can_fetch`: an unloaded checker allows every URL; a loaded one asks its rules. */
  function CanFetch(r: RobotsChecker, url: Url): (ok: bool)
    ensures !r.loaded ==> ok
    ensures r.loaded ==> (ok <==> r.policy(UserAgent, url))
  {
    if !r.loaded then true else r.policy(UserAgent, url)
  }

  /** When reading robots.txt raises, nothing is ever blocked. */
  lemma FailOpen(seed: Url, load: Url -> Option<Policy>, url: Url)
    requires load(RobotsUrl(seed)).None?
    ensures CanFetch(LoadChecker(seed, load), url)
  {
  }
}

=== FILE: text.dfy ===
/**
 * The handful of Python `str` operations the crawler relies on: `lower`,
 * `strip`/`rstrip`, `split` with an explicit separator, `startswith` and
 * `endswith`.
 */
module Text {

  /** ASCII capital letter; `str.lower` is modelled on this range only. */
  predicate IsUpper(c: char) {
    'A' <= c <= 'Z'
  }

  function LowerChar(c: char): char {
    if IsUpper(c) then (c as int - 'A' as int + 'a' as int) as char else c
  }

  /** No character of `s` is an ASCII capital. */
  predicate IsLowerCase(s: string) {
    forall i :: 0 <= i < |s| ==> !IsUpper(s[i])
  }

  /** `str.lower()`: capitals are mapped to small letters, everything else is kept. */
  function Lower(s: string): (r: string)
    ensures |r| == |s|
    ensures IsLowerCase(r)
    ensures forall i :: 0 <= i < |s| && !IsUpper(s[i]) ==> r[i] == s[i]
    ensures forall i :: 0 <= i < |s| && IsUpper(s[i]) ==> r[i] as int == s[i] as int + 32
  {
    seq(|s|, i requires 0 <= i < |s| => LowerChar(s[i]))
  }

  lemma LowerOfLowerCase(s: string)
    requires IsLowerCase(s)
    ensures Lower(s) == s
  {
  }

  /** The characters Python's argument-less `str.strip()` removes. */
  predicate IsSpace(c: char) {
    || c == ' '
    || '\t' <= c <= '\r'
    || '\U{1C}' <= c <= '\U{1F}'
    || c == '\U{85}' || c == '\U{A0}' || c == '\U{1680}'
    || '\U{2000}' <= c <= '\U{200A}'
    || c == '\U{2028}' || c == '\U{2029}' || c == '\U{202F}' || c == '\U{205F}'
    || c == '\U{3000}'
  }

  /** `str.lstrip`: the longest prefix of `drop` characters is removed. */
  function TrimLeft(s: string, drop: char -> bool): (r: string)
    ensures |r| <= |s| && r == s[|s| - |r|..]
    ensures forall i :: 0 <= i < |s| - |r| ==> drop(s[i])
    ensures |r| > 0 ==> !drop(r[0])
    decreases |s|
  {
    if |s| > 0 && drop(s[0]) then TrimLeft(s[1..], drop) else s
  }

  /** `str.rstrip`: the longest suffix of `drop` characters is removed. */
  function TrimRight(s: string, drop: char -> bool): (r: string)
    ensures |r| <= |s| && r == s[..|r|]
    ensures forall i :: |r| <= i < |s| ==> drop(s[i])
    ensures |r| > 0 ==> !drop(r[|r| - 1])
    decreases |s|
  {
    if |s| > 0 && drop(s[|s| - 1]) then TrimRight(s[..|s| - 1], drop) else s
  }

  /** `str.strip`: both ends trimmed. */
  function Strip(s: string, drop: char -> bool): (r: string)
    ensures |r| <= |s|
    ensures |r| > 0 ==> !drop(r[0]) && !drop(r[|r| - 1])
  {
    TrimRight(TrimLeft(s, drop), drop)
  }

  /** Every character of the stripped string occurs in the original. */
  lemma TrimmedIsInfix(s: string, drop: char -> bool)
    ensures forall c :: c in Strip(s, drop) ==> c in s
  {
    var l := TrimLeft(s, drop);
    var r := TrimRight(l, drop);
    forall c | c in r ensures c in s {
      var i :| 0 <= i < |r| && r[i] == c;
      assert l[i] == c;
      assert s[|s| - |l| + i] == c;
    }
  }

  /** Stripping a string padded on both sides with trimmed characters gives back the inner string. */
  lemma StripPadded(pre: string, t: string, post: string, drop: char -> bool)
    requires forall i :: 0 <= i < |pre| ==> drop(pre[i])
    requires forall i :: 0 <= i < |post| ==> drop(post[i])
    requires |t| > 0 ==> !drop(t[0]) && !drop(t[|t| - 1])
    ensures Strip(pre + t + post, drop) == t
  {
    var s := pre + t + post;
    var l := TrimLeft(s, drop);
    if |t| == 0 {
      assert forall i :: 0 <= i < |s| ==> drop(s[i]);
      assert l == "";
    } else {
      assert s[|pre|] == t[0];
      assert forall i :: 0 <= i < |pre| ==> s[i] == pre[i];
      assert |l| == |t| + |post|;
      assert l == t + post;
      var r := TrimRight(l, drop);
      assert l[|t| - 1] == t[|t| - 1];
      assert forall i :: |t| <= i < |l| ==> l[i] == post[i - |t|];
      assert |r| == |t|;
      assert r == t;
    }
  }

  /** A string none of whose characters would be trimmed is its own strip. */
  lemma StripKeepsClean(s: string, drop: char -> bool)
    requires forall i :: 0 <= i < |s| ==> !drop(s[i])
    ensures Strip(s, drop) == s
  {
  }

  /** Strip leaves nothing exactly when every character is trimmed. */
  lemma StripEmptyIff(s: string, drop: char -> bool)
    ensures Strip(s, drop) == "" <==> forall i :: 0 <= i < |s| ==> drop(s[i])
  {
    var l := TrimLeft(s, drop);
    assert forall i :: 0 <= i < |l| ==> l[i] == s[|s| - |l| + i];
  }

  predicate StartsWith(s: string, prefix: string) {
    |prefix| <= |s| && s[..|prefix|] == prefix
  }

  predicate EndsWith(s: string, suffix: string) {
    |suffix| <= |s| && s[|s| - |suffix|..] == suffix
  }

  /**
   * `s.split(sep)` with an explicit separator: the pieces between separators,
   * empty pieces included, so there is always at least one piece.
   */
  function Split(s: string, sep: char): (parts: seq<string>)
    ensures |parts| >= 1
    ensures forall i :: 0 <= i < |parts| ==> sep !in parts[i]
    decreases |s|
  {
    if |s| == 0 then [""]
    else
      var rest := Split(s[1..], sep);
      if s[0] == sep then [""] + rest
      else [[s[0]] + rest[0]] + rest[1..]
  }

  /** `sep.join(parts)`. */
  function Join(parts: seq<string>, sep: char): string
    decreases |parts|
  {
    if |parts| == 0 then ""
    else if |parts| == 1 then parts[0]
    else parts[0] + [sep] + Join(parts[1..], sep)
  }

  /** Joining the pieces of a split restores the original string. */
  lemma {:induction false} JoinSplit(s: string, sep: char)
    ensures Join(Split(s, sep), sep) == s
    decreases |s|
  {
    if |s| > 0 {
      var rest := Split(s[1..], sep);
      JoinSplit(s[1..], sep);
      if s[0] == sep {
        assert Split(s, sep) == [""] + rest;
        assert Join([""] + rest, sep) == "" + [sep] + Join(rest, sep);
      } else {
        var parts := Split(s, sep);
        assert parts == [[s[0]] + rest[0]] + rest[1..];
        if |rest| == 1 {
          assert Join(parts, sep) == [s[0]] + rest[0];
        } else {
          assert Join(rest, sep) == rest[0] + [sep] + Join(rest[1..], sep);
          assert Join(parts, sep) == [s[0]] + rest[0] + [sep] + Join(rest[1..], sep);
        }
        assert s == [s[0]] + s[1..];
      }
    }
  }

  /** A string without the separator splits into itself alone. */
  lemma {:induction false} SplitWithoutSep(s: string, sep: char)
    requires sep !in s
    ensures Split(s, sep) == [s]
    decreases |s|
  {
    if |s| > 0 {
      SplitWithoutSep(s[1..], sep);
      assert s == [s[0]] + s[1..];
    }
  }

  /** One step of the split: a leading separator starts a new piece, any other character extends the first. */
  lemma SplitCons(c: char, t: string, sep: char)
    ensures c == sep ==> Split([c] + t, sep) == [""] + Split(t, sep)
    ensures c != sep ==> Split([c] + t, sep) == [[c] + Split(t, sep)[0]] + Split(t, sep)[1..]
  {
    assert ([c] + t)[0] == c;
    assert ([c] + t)[1..] == t;
  }

  /** Splitting distributes over joining two strings with the separator. */
  lemma {:induction false} SplitConcat(a: string, b: string, sep: char)
    ensures Split(a + [sep] + b, sep) == Split(a, sep) + Split(b, sep)
    decreases |a|
  {
    if |a| == 0 {
      assert a + [sep] + b == [sep] + b;
      SplitCons(sep, b, sep);
    } else {
      SplitConcat(a[1..], b, sep);
      SplitConcatStep(a, b, sep);
    }
  }

  /** The inductive step of `SplitConcat`: one more character in front of the first string. */
  lemma SplitConcatStep(a: string, b: string, sep: char)
    requires |a| > 0
    requires Split(a[1..] + [sep] + b, sep) == Split(a[1..], sep) + Split(b, sep)
    ensures Split(a + [sep] + b, sep) == Split(a, sep) + Split(b, sep)
  {
    var s := a + [sep] + b;
    assert s[0] == a[0];
    assert s[1..] == a[1..] + [sep] + b;
    var restA := Split(a[1..], sep);
    var restB := Split(b, sep);
    if a[0] != sep {
      var head: seq<string> := [[a[0]] + restA[0]];
      AppendTail(restA, restB);
      assert Split(s, sep) == head + (restA[1..] + restB);
      assert Split(a, sep) == head + restA[1..];
      AppendAssoc(head, restA[1..], restB);
    } else {
      assert Split(s, sep) == [""] + (restA + restB);
      assert Split(a, sep) == [""] + restA;
      AppendAssoc([""], restA, restB);
    }
  }

  lemma AppendTail<T>(p: seq<T>, q: seq<T>)
    requires |p| > 0
    ensures (p + q)[0] == p[0] && (p + q)[1..] == p[1..] + q
  {
  }

  lemma AppendAssoc<T>(x: seq<T>, p: seq<T>, q: seq<T>)
    ensures x + (p + q) == (x + p) + q
  {
  }

  /** Splitting is the inverse of joining pieces that do not contain the separator. */
  lemma {:induction false} SplitJoin(parts: seq<string>, sep: char)
    requires |parts| >= 1
    requires forall i :: 0 <= i < |parts| ==> sep !in parts[i]
    ensures Split(Join(parts, sep), sep) == parts
    decreases |parts|
  {
    SplitWithoutSep(parts[0], sep);
    if |parts| > 1 {
      SplitJoin(parts[1..], sep);
      SplitConcat(parts[0], Join(parts[1..], sep), sep);
      assert [parts[0]] + parts[1..] == parts;
    }
  }

  /** `[f(x) for x in s]`. */
  function MapEach<T, U>(s: seq<T>, f: T -> U): (r: seq<U>)
    ensures |r| == |s|
    ensures forall i :: 0 <= i < |s| ==> r[i] == f(s[i])
  {
    seq(|s|, i requires 0 <= i < |s| => f(s[i]))
  }

  /** Mapping distributes over concatenation. */
  lemma MapEachConcat<T, U>(x: seq<T>, y: seq<T>, f: T -> U)
    ensures MapEach(x + y, f) == MapEach(x, f) + MapEach(y, f)
  {
    var m := MapEach(x + y, f);
    forall i | 0 <= i < |m| ensures m[i] == (MapEach(x, f) + MapEach(y, f))[i] {
      if i >= |x| {
        assert (x + y)[i] == y[i - |x|];
      }
    }
  }
}

=== FILE: urls.dfy ===
/**
 * URLs as the crawler sees them after `urlparse`, and the helpers that look
 * at their parts: the same-domain test, the lower-cased file extension of
 * the path, the path's basename, and the depth of a path below a base path.
 */
module Urls {
  import opened Text
  import opened Wrappers

  /**
   * A URL already split into `scheme://netloc/path?query#fragment`.
   * Resolving a link against its page (`urljoin`) happens before a URL
   * reaches this model.
   */
  datatype Url = Url(
    scheme: string,
    netloc: string,
    path: string,
    query: Option<string>,
    fragment: Option<string>)

  /** The URL whose text is the empty string. */
  predicate IsEmpty(u: Url) {
    u.scheme == "" && u.netloc == "" && u.path == "" && u.query.None? && u.fragment.None?
  }

  /** `link.split("#")[0]`: the fragment and its `#` are dropped. */
  function StripFragment(u: Url): (r: Url)
    ensures r.fragment.None?
    ensures r.(fragment := u.fragment) == u
  {
    u.(fragment := None)
  }

  /** `is_same_domain`: the network locations are compared exactly, with no host normalisation. */
  predicate IsSameDomain(u: Url, baseNetloc: string) {
    u.netloc == baseNetloc
  }

  /**
   * The comparison looks at the network location only: the scheme does not
   * matter, while a `www.` prefix, a different letter case or an explicit
   * port make a different domain.
   */
  lemma SameDomainIsExact(path: string)
    ensures IsSameDomain(Url("http", "a.example", path, None, None), "a.example")
    ensures IsSameDomain(Url("ftp", "a.example", path, None, None), "a.example")
    ensures !IsSameDomain(Url("https", "www.a.example", path, None, None), "a.example")
    ensures !IsSameDomain(Url("https", "A.example", path, None, None), "a.example")
    ensures !IsSameDomain(Url("https", "a.example:443", path, None, None), "a.example")
  {
    assert "www.a.example" != "a.example" by { assert |"www.a.example"| != |"a.example"|; }
    assert "A.example"[0] != "a.example"[0];
    assert |"a.example:443"| != |"a.example"|;
  }

  predicate IsSlash(c: char) {
    c == '/'
  }

  /** `str.rfind`: the last position of `c` in `s`, or -1. */
  function LastIndexOf(s: string, c: char): (r: int)
    ensures -1 <= r < |s|
    ensures r >= 0 ==> s[r] == c
    ensures forall k :: r < k < |s| ==> s[k] != c
    decreases |s|
  {
    if |s| == 0 then -1
    else if s[|s| - 1] == c then |s| - 1
    else LastIndexOf(s[..|s| - 1], c)
  }

  /** `os.path.basename`: everything after the last slash. */
  function Basename(path: string): string {
    path[LastIndexOf(path, '/') + 1..]
  }

  /** The basename is the longest suffix of the path without a slash. */
  lemma BasenameIsFinalSegment(path: string)
    ensures '/' !in Basename(path)
    ensures EndsWith(path, Basename(path))
    ensures |Basename(path)| < |path| ==> path[|path| - |Basename(path)| - 1] == '/'
  {
  }

  /** A final path segment has an extension when a dot follows some character other than a dot. */
  predicate HasExtensionDot(name: string) {
    exists i, j :: 0 <= i < j < |name| && name[i] != '.' && name[j] == '.'
  }

  /**
   * The extension part of `os.path.splitext(path)`. The last dot after the
   * last slash is the last dot of the final segment; the extension runs from
   * there to the end, provided something other than a dot precedes it within
   * the segment (so ".bashrc" and "..x" have none); otherwise it is empty.
   */
  function SplitExt(path: string): (ext: string)
    ensures ext == "" || (ext[0] == '.' && EndsWith(Basename(path), ext) && '.' !in ext[1..])
    ensures ext != "" <==> HasExtensionDot(Basename(path))
  {
    var name := Basename(path);
    var dot := LastIndexOf(name, '.');
    SplitExtCondition(name);
    if dot >= 0 && exists k :: 0 <= k < dot && name[k] != '.' then name[dot..] else ""
  }

  lemma SplitExtCondition(name: string)
    ensures var dot := LastIndexOf(name, '.');
      (dot >= 0 && exists k :: 0 <= k < dot && name[k] != '.') <==> HasExtensionDot(name)
  {
    var dot := LastIndexOf(name, '.');
    if HasExtensionDot(name) {
      var i, j :| 0 <= i < j < |name| && name[i] != '.' && name[j] == '.';
      assert j <= dot;
    }
  }

  /** Lower-casing neither creates nor removes dots. */
  lemma LowerKeepsDots(s: string)
    ensures forall k :: 0 <= k < |s| ==> (Lower(s)[k] == '.' <==> s[k] == '.')
  {
    forall k | 0 <= k < |s|
      ensures Lower(s)[k] == '.' <==> s[k] == '.'
    {
      if IsUpper(s[k]) {
        assert Lower(s)[k] as int == s[k] as int + 32;
      }
    }
  }

  /** The extension `splitext` finds is the tail of the final segment. */
  lemma SplitExtIsTail(path: string)
    ensures SplitExt(path) == Basename(path)[|Basename(path)| - |SplitExt(path)|..]
  {
  }

  /** Lower-casing the extension keeps its dot the only one. */
  lemma LoweredExtensionDot(path: string)
    ensures var e := SplitExt(path); e == "" || '.' !in Lower(e)[1..]
  {
    var e := SplitExt(path);
    if e != "" {
      LowerKeepsDots(e);
      var l := Lower(e);
      forall k | 0 <= k < |l| - 1
        ensures l[1..][k] != '.'
      {
        assert l[1..][k] == l[k + 1];
        assert e[k + 1] == e[1..][k];
      }
    }
  }

  /**
   * `get_extension`: the lower-cased extension of the URL's path, taken from
   * its final segment only; empty when that segment has none.
   */
  function Extension(u: Url): (ext: string)
    ensures ext == "" || (ext[0] == '.' && IsLowerCase(ext) && '.' !in ext[1..])
    ensures ext != "" <==> HasExtensionDot(Basename(u.path))
    ensures |ext| <= |Basename(u.path)|
  {
    SplitExtIsTail(u.path);
    LoweredExtensionDot(u.path);
    Lower(SplitExt(u.path))
  }

  /** The extension is the lower-cased tail of the final path segment. */
  lemma ExtensionIsLoweredTail(u: Url)
    ensures var name := Basename(u.path);
      Extension(u) == Lower(name[|name| - |Extension(u)|..])
  {
    SplitExtIsTail(u.path);
    ExtensionIsLoweredSplit(u);
    LowerOfTail(Basename(u.path), SplitExt(u.path), Extension(u));
  }

  lemma ExtensionIsLoweredSplit(u: Url)
    ensures Extension(u) == Lower(SplitExt(u.path))
  {
  }

  lemma LowerOfTail(name: string, e: string, x: string)
    requires |e| <= |name| && e == name[|name| - |e|..]
    requires x == Lower(e)
    ensures x == Lower(name[|name| - |x|..])
  {
  }

  /** Counts the non-empty strings of a sequence. */
  function NonEmptyCount(parts: seq<string>): nat
    decreases |parts|
  {
    if |parts| == 0 then 0
    else (if parts[0] != "" then 1 else 0) + NonEmptyCount(parts[1..])
  }

  /** The number of maximal runs of non-slash characters, counted at their last character. */
  function RunEnds(s: string): nat
    decreases |s|
  {
    if |s| == 0 then 0
    else (if s[0] != '/' && (|s| == 1 || s[1] == '/') then 1 else 0) + RunEnds(s[1..])
  }

  /**
   * `get_url_depth`: trailing slashes are dropped from both paths, the base
   * path is removed when it is a (character-wise) prefix, and the non-empty
   * slash-separated segments that remain are counted.
   */
  function UrlDepth(u: Url, base: Url): (depth: nat)
    ensures var basePath := TrimRight(base.path, IsSlash);
      var urlPath := TrimRight(u.path, IsSlash);
      depth == RunEnds(if StartsWith(urlPath, basePath) then urlPath[|basePath|..] else urlPath)
  {
    var basePath := TrimRight(base.path, IsSlash);
    var urlPath := TrimRight(u.path, IsSlash);
    var relative := if StartsWith(urlPath, basePath) then urlPath[|basePath|..] else urlPath;
    SegmentCountIsRunEnds(relative);
    NonEmptyCount(Split(relative, '/'))
  }

  /** The first piece of a split is empty exactly when the string is empty or starts with the separator. */
  lemma SplitHeadEmpty(t: string, sep: char)
    ensures Split(t, sep)[0] == "" <==> |t| == 0 || t[0] == sep
  {
  }

  /** Counting the non-empty pieces of a split by slashes counts the runs of non-slash characters. */
  lemma {:induction false} SegmentCountIsRunEnds(s: string)
    ensures NonEmptyCount(Split(s, '/')) == RunEnds(s)
    decreases |s|
  {
    if |s| > 0 {
      var t := s[1..];
      var rest := Split(t, '/');
      SegmentCountIsRunEnds(t);
      if s[0] != '/' {
        SplitHeadEmpty(t, '/');
        assert Split(s, '/') == [[s[0]] + rest[0]] + rest[1..];
        assert NonEmptyCount(Split(s, '/')) == 1 + NonEmptyCount(rest[1..]);
        assert |s| == 1 || s[1] == t[0];
      }
    }
  }

  /** A trailing slash never ends a run. */
  lemma {:induction false} RunEndsTrailingSlash(p: string)
    ensures RunEnds(p + "/") == RunEnds(p)
    decreases |p|
  {
    if |p| > 0 {
      RunEndsTrailingSlash(p[1..]);
      assert (p + "/")[1..] == p[1..] + "/";
    }
  }

  lemma {:induction false} RunEndsTrimRight(p: string)
    ensures RunEnds(TrimRight(p, IsSlash)) == RunEnds(p)
    decreases |p|
  {
    if |p| > 0 && IsSlash(p[|p| - 1]) {
      var q := p[..|p| - 1];
      RunEndsTrimRight(q);
      assert p == q + "/";
      RunEndsTrailingSlash(q);
    }
  }

  /** Trailing slashes on the URL's path do not change its depth. */
  lemma DepthIgnoresTrailingSlash(u: Url, base: Url)
    ensures UrlDepth(u.(path := u.path + "/"), base) == UrlDepth(u, base)
    ensures UrlDepth(u, base.(path := base.path + "/")) == UrlDepth(u, base)
  {
    assert (u.path + "/")[..|u.path|] == u.path;
    assert (base.path + "/")[..|base.path|] == base.path;
  }

  /** Below a base path, the depth is the number of non-empty segments after it. */
  lemma DepthBelowBase(u: Url, base: Url, rest: string)
    requires TrimRight(u.path, IsSlash) == TrimRight(base.path, IsSlash) + "/" + rest
    ensures UrlDepth(u, base) == RunEnds(rest)
  {
    var basePath := TrimRight(base.path, IsSlash);
    var urlPath := TrimRight(u.path, IsSlash);
    assert urlPath[..|basePath|] == basePath;
    assert urlPath[|basePath|..] == "/" + rest;
    assert ("/" + rest)[1..] == rest;
  }

  /**
   * The base path is removed as a character prefix, not as a sequence of
   * segments: below "/a/b", the path "/a/bc/d" has depth 2 ("c" and "d").
   */
  lemma DepthIsCharacterwise(u: Url, base: Url)
    requires u.path == "/a/bc/d" && base.path == "/a/b"
    ensures UrlDepth(u, base) == 2
  {
    assert TrimRight(u.path, IsSlash) == "/a/bc/d";
    assert TrimRight(base.path, IsSlash) == "/a/b";
    assert StartsWith("/a/bc/d", "/a/b");
    assert "/a/bc/d"[4..] == "c/d";
    assert RunEnds("d") == 1;
    assert RunEnds("/d") == 1;
    assert RunEnds("c/d") == 2;
  }

  /** Below a root base path the depth is the number of non-empty segments of the URL's path. */
  lemma DepthBelowRoot(u: Url, base: Url)
    requires forall i :: 0 <= i < |base.path| ==> base.path[i] == '/'
    ensures UrlDepth(u, base) == RunEnds(u.path)
  {
    var urlPath := TrimRight(u.path, IsSlash);
    assert TrimRight(base.path, IsSlash) == "";
    assert urlPath[0..] == urlPath;
    SegmentCountIsRunEnds(urlPath);
    RunEndsTrimRight(u.path);
  }
}

=== FILE: wrappers.dfy ===
/** Optional values, standing in for Python's `None`. */
module Wrappers {

  datatype Option<+T> = None | Some(value: T) {

    /** The wrapped value, or `default` when there is none. */
    function GetOr(default: T): T {
      match this
      case Some(v) => v
      case None => default
    }
  }
}
